=== FILE: README.md ===
# muppet convergence engine, in Dafny

This project models the convergence engine of muppet, a single-host configuration tool. The engine sits behind the `edit` and `visudo` manifest calls and exists in two revisions: the packaged `muppet/functions.py` and the older top-level `functions.py`. For one managed config file the engine:

- maps the destination to a scope and a source-of-truth file;
- refuses a destination that is a symbolic link;
- compiles the desired contents and decides whether the file must be written: it is absent or unreadable, or its text differs;
- takes a timestamped sibling backup (`path-YYYYMMDD_HHMMSS~`) that must not already exist, then writes;
- reconciles owner, group and permission bits;
- returns whether anything changed.

`visudo` adds three things. The `visudo -c` syntax checker must accept the text. An exclusive lockfile `path.tmp` surrounds the write. The attributes are forced to `root:root` with mode 0o440. In a dry run every write is skipped, except the lockfile's creation and removal.

## Structure

- **The filesystem** (`Fs`) is an immutable map from path to entry. An entry is a regular file (text, uid, gid, 12 permission bits, readable or not) or a symbolic link.
  - A symbolic link stored under a whole path is followed to the path it names, up to 40 hops; beyond that the result is `ELOOP`. A link target is taken as a literal key, and links in directory components are not followed, since directories are not modelled.
  - The system calls the engine makes are pure functions from one map to the next: `open`/`write`, `os.stat`, `os.chown`, `os.chmod`, `shutil.copy2`, `shutil.copystat`, `os.open(O_CREAT|O_EXCL)` and `os.remove`.
- **Every operation returns a `Run`.** A `Run` holds the filesystem afterwards, the warnings logged, and either the returned value or the Python exception raised.
  - A raised exception keeps whatever the call had already changed.
  - Python's `None` is `Option.None`.
- **The user and group databases, `$HOME`, the clock, the template renderer and the syntax checker are inputs.** `os.path.expanduser` is modelled concretely over the user database (`Accounts`).
- **`Engine` holds the logic both revisions share,** parameterised by what differs between them: the destination path, the source of truth, and the backup name checked and written.
  - `EditLaws` states the laws of `edit`.
  - `Sudoers` and `SudoersLaws` do the same for the `visudo` transaction, parameterised by which caught `OSError` is logged as "busy".
- **`Packaged` and `Legacy` are the two revisions.** Each says how it names paths and calls the engine. Both use `Globals` for the environment and the backup-name format.
- **`Modes`** models the `MODES` tables, and **`Stamps`** models the `strftime('%Y%m%d_%H%M%S')` timestamp.
- **`Diff`** models `splitlines(True)`. Its lemmas justify reducing `_diff` to "reading fails, or the text is not the desired text".

### Behaviour worth noting

- **Errors propagate out of `edit` and `visudo`:**
  - an `IOError` from an unreadable source of truth;
  - an `IOError` from a backup copy;
  - a `KeyError` from an unknown owner or group;
  - an `IOError` inside the `visudo` transaction, which `except OSError` does not catch.
- **A rejected or busy `visudo` still changes things.**
  - It still reconciles the file's attributes. In the packaged revision it may change the filesystem and return true; the older one returns `None` either way.
  - A held lockfile is discovered only after the backup has been taken.
- **Backup ownership.** A backup copy is owned by the process running the manifests: `shutil.copy2` does not restore the original owner.
- **A dry-run `visudo` touches the lockfile.** It still creates and removes the lockfile, so it aborts on a held lockfile as a real run does. It logs "busy" in the older revision and logs nothing in the packaged revision as written. Its net effect on the filesystem is nil.

## Model

| member | source | states |
|---|---|---|
| Modes.PackagedModesConsistent | muppet/functions.py:26-31 | every `MODES` key's permission characters 1-9 are not `-` exactly when the matching bit of its value is set, the symbolic form of each value is its key, and `-r--r-----` is 0o440 |
| Modes.LegacyModesConsistent | functions.py:23-26 | the same consistency for the three entries of the older table |
| Modes.LegacyModesArePackagedModes | functions.py:23-26 | every older entry is in the packaged table with the same value |
| Stamps.ParseFormat | muppet/functions.py:154 | the `%Y%m%d_%H%M%S` stamp of a moment parses back to that moment |
| Stamps.FormatInjective | muppet/functions.py:154 | different moments give different stamps |
| Globals.BackupName | muppet/functions.py:154 | the backup name is the file's path followed by 17 characters |
| Globals.BackupNameParses | functions.py:129 | a backup name starts with the file's path and `-`, ends with `~`, and the stamp between parses back to the moment of the backup |
| Globals.BackupNamesDistinct | muppet/functions.py:154 | backups of one file taken at different moments have different names |
| Accounts.ExpandUser | muppet/functions.py:219 | a path not starting with `~` is left as it is |
| Accounts.ExpandUserHome | muppet/functions.py:172 | `~name/rest` of a known user becomes that user's home directory followed by `/rest` |
| Accounts.ExpandUserUnknown | muppet/functions.py:172 | `~name/rest` of an unknown user is left as it is |
| Diff.JoinLines | muppet/functions.py:129-130 | concatenating the `splitlines(True)` lines of a text gives the text back |
| Diff.SameLinesIffSameText | muppet/functions.py:129-131 | two texts have equal line lists exactly when they are equal, so the diff is empty exactly when the texts are equal |
| Fs.ReadText | muppet/functions.py:128-129 | reading succeeds exactly when the path leads to a readable file, and then yields that file's text |
| Fs.StatOf | muppet/functions.py:242 | `os.stat` succeeds exactly when the path leads to a file, and reports that file's owner, group and mode |
| Fs.ChownPath | muppet/functions.py:104 | `os.chown` fails when the path leads nowhere; otherwise it sets exactly the owner and group of the file the path leads to, and no link changes |
| Fs.ChmodPath | muppet/functions.py:117 | `os.chmod` fails when the path leads nowhere; otherwise it sets exactly the mode of the file the path leads to, and no link changes |
| Fs.WriteText | muppet/functions.py:172-174 | writing fails exactly when the path cannot be followed; otherwise only the file the path leads to changes, it holds the new text, an existing file keeps every other attribute, a new one is readable, and no link changes |
| Fs.CopyMode | muppet/functions.py:179-181 | `copystat` sets the mode of the destination's file to the source file's mode and fails when either does not exist |
| Fs.Copy2 | muppet/functions.py:162 | two ends that are one file raise `shutil.Error` before either is opened; otherwise an unreadable source raises `IOError`; the copy changes only the file the destination leads to, and on success leaves there the source's text and mode |
| Fs.CreateExclusive | muppet/functions.py:304 | exclusive creation fails with `EEXIST` when anything, even a dangling link, is at the path, and otherwise adds exactly one file there and nothing else |
| Fs.Remove | muppet/functions.py:311 | removal deletes exactly that entry and fails with `ENOENT` when there is none |
| Fs.FollowKept | muppet/functions.py:171-181 | while no link is added, removed or changed, every path leads to the same place |
| Engine.Chown | muppet/functions.py:94-107 | `KeyError` for an unknown owner, then for an unknown group; otherwise returns whether uid or gid differs from the stat; no change in a dry run or when both match; otherwise exactly the owner and group of the file the path leads to change |
| Engine.Chmod | muppet/functions.py:109-120 | returns whether the mode differs from the stat's permission bits; no change in a dry run or when equal; otherwise exactly the mode of the file the path leads to changes |
| Engine.Reconcile | muppet/functions.py:240-248 | on an existing file, with known owner and group, returns whether uid, gid or mode differ from one stat, and in a real run leaves that file with exactly the desired owner, group and mode; a missing file is left alone and gives false |
| Engine.Differs | muppet/functions.py:122-138 | an unreadable or missing file differs; a file holding exactly the desired text does not |
| Engine.DiffersIff | muppet/functions.py:122-138 | `_diff` is truthy exactly when reading the file fails or its text is not the desired text |
| Engine.Backup | muppet/functions.py:149-163 | an existing checked name gives false with nothing copied; otherwise true (or an exception: `shutil.Error` when the write name leads to the file itself, else `IOError` for an unreadable file), nothing but the file the write name leads to changes, no existing entry is removed, a dry run copies nothing, and a real copy holds the source's text and mode |
| Engine.BackupNeverClobbers | functions.py:124-137 | when the name checked is the name written, a backup changes no existing entry |
| Engine.WriteFile | functions.py:139-152 | `_edit` changes nothing in a dry run; otherwise only the destination's file changes, it holds the desired text and the source of truth's mode, and its owner and readability are kept |
| Engine.Commit | muppet/functions.py:236-250 | `_edit` then `change = True`: the log is kept, no link changes, nothing outside the file the destination leads to changes, and in a dry run the flag is true with the attributes only compared |
| Engine.Finish | muppet/functions.py:240-250 | the returned flag is wrote OR owner/group mismatch OR mode mismatch; a missing destination is left alone |
| Engine.EditCore | muppet/functions.py:209-250 | a symbolic-link destination gives `None` with nothing touched and nothing compiled; an existing backup name aborts with `None` and touches nothing; a dry run changes nothing |
| Engine.EditConverges | muppet/functions.py:229-250 | after a real `edit` that returns a flag, the destination is a readable file with exactly the desired text, owner, group and mode |
| EditLaws.EditKeepsOtherFiles | muppet/functions.py:229-250 | when the backup checks the name it writes, `edit` changes no existing entry other than the destination |
| EditLaws.EditFlagMeansChange | muppet/functions.py:214-250 | when the backup checks the name it writes, a real `edit` returns true exactly when it changed the filesystem |
| EditLaws.EditDryRunAgrees | muppet/functions.py:229-250 | whenever a real run returns, the dry run from the same state returns the same value and warnings and changes nothing |
| EditLaws.EditDryRunPredicts | muppet/functions.py:229-250 | with known owner and group, a readable destination, a source of truth and a resolvable backup name, the real run returns what the dry run returned |
| EditLaws.EditIdempotent | muppet/functions.py:229-250 | after a real `edit` that returns a flag, the same call again (real or dry, at any time) changes nothing, takes no backup and returns false |
| EditLaws.EditSettled | muppet/functions.py:229-250 | a destination already holding the desired text, owner, group and mode is left alone and gives false |
| Sudoers.Catch | muppet/functions.py:317-319 | an `OSError` ends the block with the change still false, logging "busy" as the policy says; any other exception escapes |
| Sudoers.Locked | muppet/functions.py:303-313 | a lockfile already present is caught as `EEXIST` with nothing written; a dry run leaves the filesystem as it was; a lockfile never removes anything else |
| Sudoers.Transaction | muppet/functions.py:291-319 | a checker that cannot be spawned is caught as an `OSError`; a rejecting checker logs its complaint and writes nothing; `None` comes only from a refused backup |
| Sudoers.Attempt | muppet/functions.py:287-289 | no difference means no transaction: false, nothing logged, nothing changed |
| Sudoers.VisudoCore | muppet/functions.py:274-331 | a dry run leaves the filesystem as it was; "busy" is logged only by a policy that logs something; `None` comes only after a refused backup |
| SudoersLaws.VisudoForcesRoot | muppet/functions.py:321-329 | after a real `visudo` that reaches the attribute block, an existing sudoers file has root's uid and gid and mode 0o440 |
| SudoersLaws.VisudoGate | muppet/functions.py:289-313 | unless the text differs, the checker exits 0, no lockfile is present and no backup name is in the way, the sudoers file's text is unchanged |
| SudoersLaws.VisudoWrites | muppet/functions.py:298-313 | when all those hold, the source of truth exists, and neither the sudoers path nor the backup name leads to the lockfile, a real run that returns has written the desired text and reports a change |
| SudoersLaws.VisudoReleasesLock | muppet/functions.py:303-311 | when the source of truth exists and the backup name does not lead to the lockfile, the lockfile is present after a run that returns exactly when it was present before |
| SudoersLaws.VisudoLog | muppet/functions.py:314-319 | the warnings logged when the checker cannot be spawned, rejects the text, or finds the lockfile held |
| SudoersLaws.VisudoIdempotent | muppet/functions.py:287-331 | once a real run has left the desired text, running again changes nothing and returns false |
| SudoersLaws.VisudoDryRunAgrees | muppet/functions.py:289-331 | under the same two conditions, whenever a real run returns, the dry run returns the same value and warnings and changes nothing |
| Packaged.ScopeOf | muppet/functions.py:199-207 | an empty path raises `IndexError`; the user scope is chosen exactly for a path starting with `~`, and the scoped path is `~owner` followed by what follows the `~`; any other path is unchanged in the root scope |
| Packaged.AfterFirstSlash | muppet/functions.py:188 | `split('/', 1)[1]` is what follows the first `/`, and raises `IndexError` exactly when there is none |
| Packaged.SourcePath | muppet/functions.py:179-180 | the source path exists exactly when the path has a `/` |
| Packaged.UserFileMirrorsSource | muppet/functions.py:199-207 | `~/rest` edited for a user names `rest` under that user's home, with its source of truth `files/user/rest` |
| Packaged.SystemFileMirrorsSource | muppet/functions.py:183-188 | an absolute path names itself, with its source of truth the same path under `files/root/` |
| Packaged.Compile | muppet/functions.py:183-197 | the contents are the source of truth's text, verbatim or rendered; an unreadable source raises `IOError`, a path without `/` raises `IndexError` |
| Packaged.BackupFor | muppet/functions.py:154-162 | the corrected backup checks and writes the same expanded name |
| Packaged.BackupForAsWritten | muppet/functions.py:154-162 | as written, the backup checks the expanded name and writes the name unexpanded |
| Packaged.BackupNamesAgreeOffHome | muppet/functions.py:156-162 | for a path not starting with `~`, the written and the corrected backup names coincide |
| Packaged.Chown | muppet/functions.py:94-107 | the change lands on the file `expanduser(path)` leads to, and is skipped in a dry run |
| Packaged.Chmod | muppet/functions.py:109-120 | the change lands on the file `expanduser(path)` leads to, and is skipped in a dry run |
| Packaged.Backup | muppet/functions.py:149-163 | no existing entry changes, and an existing expanded backup name gives false |
| Packaged.BackupAsWritten | muppet/functions.py:149-163 | an existing expanded backup name gives false with nothing copied |
| Packaged.BackupAsWrittenClobbers | muppet/functions.py:156-162 | as written, whenever the checked name is free, the file at the literal backup name is overwritten with the source's text |
| Packaged.BackupAsWrittenClobbersAlice | muppet/functions.py:156-162 | an instance: backing up `~alice/.bashrc` destroys an existing `~alice/.bashrc-<stamp>~` in the working directory |
| Packaged.EditFile | muppet/functions.py:165-181 | nothing happens in a dry run; otherwise the text is written and the source's mode copied, and a path without `/` raises `IndexError` after the write |
| Packaged.Edit | muppet/functions.py:209-250 | an empty path raises `IndexError`; a symbolic-link destination gives `None` with nothing touched; a dry run changes nothing |
| Packaged.EditTakesSteps | muppet/functions.py:231-248 | on a differing file that exists, `edit` is this revision's `_backup`, then its `_edit`, then the attribute block: a refused backup aborts with `None`, an exception from either step escapes, and otherwise the attribute block runs on the written file with the flag set |
| Packaged.EditAsWritten | muppet/functions.py:209-250 | apart from `~` paths it is the corrected `edit` |
| Packaged.EditUserFile | muppet/functions.py:204-250 | a real corrected `edit('~/rest', owner, ...)` that returns a flag leaves the owner's `~/rest` holding `files/user/rest`, with the desired owner, group and mode |
| Packaged.EditOfUserFile | muppet/functions.py:217-237 | the corrected `edit('~/rest', owner, ...)` runs the engine on the owner's file, with `files/user/rest` as its source |
| Packaged.EditIdempotent | muppet/functions.py:209-250 | after a real corrected `edit` of an absolute path whose source is not the file itself, the same call later changes nothing and returns false |
| Packaged.EditUserIdempotent | muppet/functions.py:199-250 | after a real corrected `edit('~/rest', owner, ...)` that returns a flag, where `files/user/rest` is not the owner's file itself, the same call later (real or dry) changes nothing and returns false |
| Packaged.EditAsWrittenUserIdempotent | muppet/functions.py:149-162 | the same for `edit('~/rest', owner, ...)` as written, provided the literal `~owner/rest-<stamp>~` name that `_backup` copies to does not lead to `files/user/rest` |
| Packaged.SudoersPath | muppet/functions.py:281 | the sudoers path is `/etc/sudoers.d/` followed by the file name |
| Packaged.Visudo | muppet/functions.py:274-331 | the corrected `visudo`: a compile error escapes with nothing touched; a checker that cannot be spawned is not reported as busy; `None` comes only from a refused backup; a dry run changes nothing |
| Packaged.VisudoAsWritten | muppet/functions.py:317-319 | as written, no run ever logs "busy" |
| Packaged.VisudoReportsBusy | muppet/functions.py:317-319 | with a differing, accepted text and a held lockfile, the corrected `visudo` logs "busy" and the written one logs nothing |
| Packaged.VisudoReleasesLock | muppet/functions.py:303-311 | the lockfile `<path>.tmp` is present after a run that returns exactly when it was before, unless the backup name is a link |
| Legacy.SourcePath | functions.py:120 | the source of truth is the manifest directory, `/files/root/`, then the path minus its first character; slicing never raises, even on an empty path |
| Legacy.Compile | functions.py:114-122 | the contents are the rendered source of truth; an unreadable source raises `IOError` |
| Legacy.BackupFor | functions.py:129-136 | the older backup checks and writes the same name |
| Legacy.Chown | functions.py:68-81 | returns whether uid or gid differs; the change lands on the path as given, and is skipped in a dry run |
| Legacy.Chmod | functions.py:83-94 | returns whether the mode differs; the change lands on the path as given, and is skipped in a dry run |
| Legacy.Backup | functions.py:124-137 | no existing entry changes; an existing backup name gives false; a real copy is a new file holding the source's text |
| Legacy.EditFile | functions.py:139-152 | nothing in a dry run; otherwise the text and the mode of `files/root/path[1:]` |
| Legacy.Edit | functions.py:154-192 | a symbolic link gives `None` with nothing touched; an unreadable source raises `IOError`; a dry run changes nothing |
| Legacy.EditTakesSteps | functions.py:173-190 | on a differing file that exists, `edit` is this revision's `_backup`, then its `_edit`, then the attribute block: a refused backup aborts with `None`, an exception from either step escapes, and otherwise the attribute block runs on the written file with the flag set |
| Legacy.EditAgreesWithPackaged | functions.py:154-192 | on an absolute path with templated contents the two revisions give the same warnings, result and filesystem |
| Legacy.EditIdempotent | functions.py:167-192 | after a real `edit` that returns a flag, the same call later changes nothing and returns false |
| Legacy.VisudoRun | functions.py:226-264 | the older transaction reports a checker that cannot be spawned as "busy"; `None` comes only from a refused backup; a dry run changes nothing |
| Legacy.Visudo | functions.py:211-266 | as written, a call that completes yields `None` |
| Legacy.VisudoFixed | functions.py:211-266 | with `return change`, `None` comes only from a refused backup |
| Legacy.VisudoLosesChange | functions.py:236-266 | a real run that writes the sudoers file yields `None` as written but true when fixed, while the file holds the new text |

## Left out

- `run`, `_messages`, `_aptget`, `install`, `purge`, `include`, `isjustinstalled`, `notjustinstalled`, `isfreshinstall` and `islaptop` are outside the engine: shell commands, pipe draining, `execfile` and environment probes.
- Mako rendering is the input function `render`. The template engine's own errors and side effects are not modelled; only its reading of the source file is, and an unreadable source raises `IOError`.
- `difflib` hunks and the verbose diff output are not modelled. Only whether the diff is empty matters to the engine.
- The text of log messages is not modelled. Only the warnings are kept (link refused, backup exists, syntax rejected, busy); `info` and `debug` lines are dropped.
- Directories are not modelled. A path's parent is assumed to exist and to be writable, and a relative path is its own key, distinct from the absolute path it would name.
- File times copied by `shutil.copy2` and `shutil.copystat` are not modelled; only permission bits are.
- Set-user-ID and set-group-ID bits are not cleared by `chown` in the model, as the kernel would clear them.
- Desired modes are 12-bit values. A `mode` argument above 0o7777 is not representable.
- The checker's input and error text are not modelled. Only its exit status matters; `None` stands for failing to spawn it.
- Closing the lockfile descriptor (`os.close`) has no effect in the model.
- Fs.WriteText, Fs.ChownPath and Fs.ChmodPath: the process is assumed allowed to write, chown and chmod every existing file, as root is; `EACCES`, `EPERM` and `EROFS` are not modelled. `EditLaws.EditDryRunPredicts` and `SudoersLaws.VisudoWrites` rely on this.
- Packaged.BackupAsWritten and Packaged.EditAsWritten: because parent directories are assumed to exist, a copy to the literal `~owner/...-<stamp>~` name always creates it. Run from a working directory without a `~owner` directory, the program instead raises `IOError` in `shutil.copy2` and abandons the edit before writing. The model shows only the clobbering outcome, where such a directory exists.
- Packaged.EditIdempotent: idempotence is stated for absolute paths and, by `Packaged.EditUserIdempotent`, for `~/rest`, of the corrected `edit`. A path such as `~name/rest`, which `_scope` turns into `~ownername/rest`, is not covered.

## Findings

| source | as written | input that shows it | evidently intended | confidence | as-written member | corrected member |
|---|---|---|---|---|---|---|
| muppet/functions.py:156-162 | `_backup` checks `exists(expanduser(moved))` but copies to `moved` unexpanded | `edit('~/.bashrc', 'alice', ...)` run from a working directory holding a file literally named `~alice/.bashrc-<stamp>~`, with no such backup under `/home/alice`: that file is overwritten, and the backup does not land beside the edited file; without a `~alice` directory there, the copy raises `IOError` and the edit is abandoned unwritten | copy to the expanded name that was checked | high; not executed | Packaged.BackupAsWrittenClobbers | Packaged.Backup |
| muppet/functions.py:317-319 | `if exc == errno.EEXIST` compares the exception object with an int, which is never true | `visudo('x')` while `/etc/sudoers.d/x.tmp` exists and the checker accepts a new text: the write is skipped and nothing is logged | `exc.errno == errno.EEXIST`, logging "busy" | high; not executed | Packaged.VisudoAsWritten | Packaged.VisudoReportsBusy |
| functions.py:211-266 | the older `visudo` has no `return change` | any call that completes, for example one that just wrote a new sudoers file, returns `None` to the manifest | `return change`, as `edit` does and as the packaged revision does | medium; not executed | Legacy.VisudoLosesChange | Legacy.VisudoFixed |

=== FILE: accounts.dfy ===
/**
 * The host the engine runs on: the user and group databases that `pwd` and
 * `grp` read, the `$HOME` of the process, and its credentials; and
 * `os.path.expanduser` over them.
 */
module Accounts {
  import opened Base
  import opened Fs

  /** A `pwd` entry: the numeric uid and the home directory. */
  datatype Passwd = Passwd(uid: int, dir: Path)

  datatype Host = Host(users: map<string, Passwd>, groups: map<string, int>, home: Path, creds: Creds)

  /** `pwd.getpwnam(owner).pw_uid` and `grp.getgrnam(group).gr_gid` both succeed. */
  predicate Resolvable(h: Host, owner: string, group: string)
  {
    owner in h.users && group in h.groups
  }

  /** Index of the first `/` at or after `i`, or `|s|`: `s.find('/', i)` with -1 mapped to `len(s)`. */
  function SlashFrom(s: string, i: nat): (j: nat)
    requires i <= |s|
    ensures i <= j <= |s|
    ensures j < |s| ==> s[j] == '/'
    ensures forall k :: i <= k < j ==> s[k] != '/'
    decreases |s| - i
  {
    if i == |s| || s[i] == '/' then i else SlashFrom(s, i + 1)
  }

  /** `s.rstrip('/')`. */
  function RStripSlashes(s: string): (r: string)
    ensures |r| <= |s| && r == s[..|r|]
    ensures |r| > 0 ==> r[|r| - 1] != '/'
    ensures forall k :: |r| <= k < |s| ==> s[k] == '/'
  {
    if |s| > 0 && s[|s| - 1] == '/' then RStripSlashes(s[..|s| - 1]) else s
  }

  /**
   * `os.path.expanduser` of Python 2.7: `~` or `~name` up to the first `/`
   * becomes that home directory, stripped of trailing slashes; an unknown
   * name or a path not starting with `~` is left as it is.
   */
  function ExpandUser(h: Host, path: Path): (r: Path)
    ensures |path| == 0 || path[0] != '~' ==> r == path
  {
    if |path| == 0 || path[0] != '~' then path
    else
      var i := SlashFrom(path, 1);
      var home := if i == 1 then Some(h.home)
                  else if path[1..i] in h.users then Some(h.users[path[1..i]].dir)
                  else None;
      match home
      case None => path
      case Some(dir) =>
        var expanded := RStripSlashes(dir) + path[i..];
        if expanded == "" then "/" else expanded
  }

  /** `~name/rest` expands to name's home directory followed by `/rest`. */
  lemma ExpandUserHome(h: Host, name: string, rest: string)
    requires name in h.users && name != "" && '/' !in name
    requires h.users[name].dir != "" && h.users[name].dir[|h.users[name].dir| - 1] != '/'
    ensures ExpandUser(h, "~" + name + "/" + rest) == h.users[name].dir + "/" + rest
  {
    var path := "~" + name + "/" + rest;
    assert forall k :: 1 <= k < 1 + |name| ==> path[k] == name[k - 1];
    var i := SlashFrom(path, 1);
    assert path[1 + |name|] == '/';
    assert path[1..i] == name;
    assert path[i..] == "/" + rest;
  }

  /** A name the user database does not know is left unexpanded. */
  lemma ExpandUserUnknown(h: Host, name: string, rest: string)
    requires name !in h.users && name != "" && '/' !in name
    ensures ExpandUser(h, "~" + name + "/" + rest) == "~" + name + "/" + rest
  {
    var path := "~" + name + "/" + rest;
    assert forall k :: 1 <= k < 1 + |name| ==> path[k] == name[k - 1];
    var i := SlashFrom(path, 1);
    assert path[1 + |name|] == '/';
    assert path[1..i] == name;
  }
}

=== FILE: base.dfy ===
/** Small shared vocabulary: an optional value. */
module Base {

  /** A value that may be missing; `None` also stands for Python's `None`. */
  datatype Option<+T> = None | Some(value: T)
}

=== FILE: diff.dfy ===
/**
 * The line lists `_diff` hands to `difflib.unified_diff`:
 * `text.splitlines(True)`, which breaks after `\n`, `\r` or `\r\n` and keeps
 * the terminators.  `unified_diff` yields nothing exactly when its two line
 * lists are equal, so `_diff` is empty exactly when the texts are equal.
 */
module Diff {

  predicate IsBreak(c: char)
  {
    c == '\n' || c == '\r'
  }

  /** Index of the first line break at or after `i`, or `|s|`. */
  function BreakFrom(s: string, i: nat): (j: nat)
    requires i <= |s|
    ensures i <= j <= |s|
    ensures j < |s| ==> IsBreak(s[j])
    ensures forall k :: i <= k < j ==> !IsBreak(s[k])
    decreases |s| - i
  {
    if i == |s| || IsBreak(s[i]) then i else BreakFrom(s, i + 1)
  }

  /** Length of the first line, its terminator included. */
  function FirstLineLength(s: string): (n: nat)
    requires |s| > 0
    ensures 0 < n <= |s|
  {
    var j := BreakFrom(s, 0);
    if j == |s| then j
    else if s[j] == '\r' && j + 1 < |s| && s[j + 1] == '\n' then j + 2
    else j + 1
  }

  /** `s.splitlines(True)`. */
  function Lines(s: string): (ls: seq<string>)
    decreases |s|
  {
    if |s| == 0 then [] else [s[..FirstLineLength(s)]] + Lines(s[FirstLineLength(s)..])
  }

  /** `''.join(ls)`. */
  function Join(ls: seq<string>): string
  {
    if |ls| == 0 then "" else ls[0] + Join(ls[1..])
  }

  /** Joining the lines gives the text back: nothing is dropped by splitting. */
  lemma {:induction false} JoinLines(s: string)
    ensures Join(Lines(s)) == s
    decreases |s|
  {
    if |s| > 0 {
      var n := FirstLineLength(s);
      var ls := Lines(s);
      assert ls[1..] == Lines(s[n..]);
      JoinLines(s[n..]);
      assert s == s[..n] + s[n..];
    }
  }

  /** Two texts have the same line lists exactly when they are the same text. */
  lemma SameLinesIffSameText(a: string, b: string)
    ensures Lines(a) == Lines(b) <==> a == b
  {
    JoinLines(a);
    JoinLines(b);
  }
}

=== FILE: edit_laws.dfy ===
/**
 * Properties of the shared `edit` state machine that relate several runs
 * or a run and its starting state: what the returned flag means,
 * agreement of dry and real runs, idempotence, and what is left untouched.
 */
module EditLaws {
  import opened Base
  import opened Modes
  import opened Fs
  import opened Accounts
  import opened Engine

  /**
   * When the backup name checked is the name copied to, `edit` changes no
   * existing entry other than the destination (a backup only ever adds a
   * new file).
   */
  lemma EditKeepsOtherFiles(h: Host, fs: FileSystem, dryrun: bool, dest: Path, compiled: Result<Compiled>,
                            owner: string, group: string, mode: Mode, t: BackupTarget)
    requires t.check == t.write
    ensures var r := EditCore(h, fs, dryrun, dest, compiled, owner, group, mode, t);
      forall k :: k in fs && k != dest ==> k in r.fs && r.fs[k] == fs[k]
  {
    var r := EditCore(h, fs, dryrun, dest, compiled, owner, group, mode, t);
    if !IsLink(fs, dest) && compiled.Ok? && Differs(fs, dest, compiled.value.text) {
      var c := compiled.value;
      assert Slot(fs, dest) == {dest};
      if Exists(fs, dest) {
        var b := Backup(h.creds, fs, dryrun, dest, t);
        BackupNeverClobbers(h.creds, fs, dryrun, dest, t);
        FollowKept(fs, b.fs, dest);
        assert Slot(b.fs, dest) == {dest};
      }
    }
  }

  /**
   * Whatever names the backup checks and copies to, `edit` changes no
   * existing entry other than the destination and the file the copied-to
   * name leads to.
   */
  lemma EditKeepsOutsideBackup(h: Host, fs: FileSystem, dryrun: bool, dest: Path, compiled: Result<Compiled>,
                               owner: string, group: string, mode: Mode, t: BackupTarget)
    ensures var r := EditCore(h, fs, dryrun, dest, compiled, owner, group, mode, t);
      forall k :: k in fs && k != dest && k !in Slot(fs, t.write) ==> k in r.fs && r.fs[k] == fs[k]
  {
  }

  /**
   * A real `edit` that returns a flag returns true exactly when it changed
   * the filesystem (given a backup checks the name it copies to).
   */
  lemma EditFlagMeansChange(h: Host, fs: FileSystem, dest: Path, c: Compiled,
                            owner: string, group: string, mode: Mode, t: BackupTarget)
    requires t.check == t.write
    requires EditCore(h, fs, false, dest, Ok(c), owner, group, mode, t).out.Returned?
    requires EditCore(h, fs, false, dest, Ok(c), owner, group, mode, t).out.value.Some?
    ensures var r := EditCore(h, fs, false, dest, Ok(c), owner, group, mode, t);
      r.out.value.value <==> r.fs != fs
  {
    var r := EditCore(h, fs, false, dest, Ok(c), owner, group, mode, t);
    assert !IsLink(fs, dest);
    EditConverges(h, fs, dest, c, owner, group, mode, t);
    if !Differs(fs, dest, c.text) {
      assert Exists(fs, dest) && Target(fs, dest) == dest;
      if !r.out.value.value {
        assert r.fs == fs[dest := fs[dest]];
      } else {
        assert r.fs[dest] != fs[dest];
      }
    } else if !Exists(fs, dest) {
      assert dest !in fs && dest in r.fs;
    } else {
      var b := Backup(h.creds, fs, false, dest, t);
      var q := Follow(fs, t.write).value;
      assert q !in fs && q in b.fs;
      FollowKept(fs, b.fs, dest);
      assert Slot(b.fs, dest) == {dest};
      assert q in r.fs;
    }
  }

  /**
   * Dry-run agreement: whenever a real `edit` returns, a dry run from the
   * same state returns the same value and logs the same warnings, and it
   * leaves the filesystem as it was.
   */
  lemma EditDryRunAgrees(h: Host, fs: FileSystem, dest: Path, compiled: Result<Compiled>,
                         owner: string, group: string, mode: Mode, t: BackupTarget)
    requires EditCore(h, fs, false, dest, compiled, owner, group, mode, t).out.Returned?
    ensures var live := EditCore(h, fs, false, dest, compiled, owner, group, mode, t);
      EditCore(h, fs, true, dest, compiled, owner, group, mode, t) == Run(fs, live.log, live.out)
  {
    var live := EditCore(h, fs, false, dest, compiled, owner, group, mode, t);
    if !IsLink(fs, dest) && compiled.Ok? {
      var c := compiled.value;
      if !Differs(fs, dest, c.text) {
        assert Exists(fs, dest);
      } else if !Exists(fs, dest) {
        var w := WriteFile(h.creds, fs, false, dest, c.source, c.text);
        FollowKept(fs, w.fs, dest);
        assert Exists(w.fs, dest);
        assert Resolvable(h, owner, group);
      } else if !Exists(fs, t.check) {
        var b := Backup(h.creds, fs, false, dest, t);
        assert b.out == Returned(true);
        var w := WriteFile(h.creds, b.fs, false, dest, c.source, c.text);
        FollowKept(fs, b.fs, dest);
        FollowKept(b.fs, w.fs, dest);
        assert Exists(w.fs, dest);
        assert Resolvable(h, owner, group);
      }
    }
  }

  /**
   * Idempotence: after a real `edit` that did not abort, calling it again
   * with the same contents and attributes (at any time, real or dry)
   * changes nothing, takes no backup and returns false.
   */
  lemma EditIdempotent(h: Host, fs: FileSystem, dest: Path, c: Compiled,
                       owner: string, group: string, mode: Mode, t: BackupTarget,
                       dryrun2: bool, t2: BackupTarget)
    requires EditCore(h, fs, false, dest, Ok(c), owner, group, mode, t).out.Returned?
    requires EditCore(h, fs, false, dest, Ok(c), owner, group, mode, t).out.value.Some?
    ensures var fs1 := EditCore(h, fs, false, dest, Ok(c), owner, group, mode, t).fs;
      EditCore(h, fs1, dryrun2, dest, Ok(c), owner, group, mode, t2) == Run(fs1, [], Returned(Some(false)))
  {
    EditConverges(h, fs, dest, c, owner, group, mode, t);
    EditSettled(h, EditCore(h, fs, false, dest, Ok(c), owner, group, mode, t).fs, dest, c, owner, group, mode, dryrun2, t2);
  }

  /** A destination that already holds the desired text and attributes is left alone. */
  lemma EditSettled(h: Host, fs: FileSystem, dest: Path, c: Compiled,
                    owner: string, group: string, mode: Mode, dryrun: bool, t: BackupTarget)
    requires Resolvable(h, owner, group)
    requires dest in fs && fs[dest] == File(c.text, h.users[owner].uid, h.groups[group], mode, true)
    ensures EditCore(h, fs, dryrun, dest, Ok(c), owner, group, mode, t) == Run(fs, [], Returned(Some(false)))
  {
    assert !IsLink(fs, dest);
    assert Exists(fs, dest) && Target(fs, dest) == dest;
    DiffersIff(fs, dest, c.text);
    assert !Mismatch(h, StatOf(fs, dest).value, owner, group, mode);
    assert fs[dest := fs[dest].(uid := h.users[owner].uid, gid := h.groups[group], mode := mode)] == fs;
  }

  /**
   * The converse of dry-run agreement: with owner and group known, a
   * readable destination (when there is one), a source-of-truth file and a
   * backup name that resolves, a real run returns what the dry run
   * returned.
   */
  lemma EditDryRunPredicts(h: Host, fs: FileSystem, dest: Path, c: Compiled,
                           owner: string, group: string, mode: Mode, t: BackupTarget)
    requires Resolvable(h, owner, group)
    requires Exists(fs, c.source)
    requires Exists(fs, dest) ==> fs[Target(fs, dest)].readable
    requires t.check == t.write && Follow(fs, t.write).Some?
    ensures var dry := EditCore(h, fs, true, dest, Ok(c), owner, group, mode, t);
      EditCore(h, fs, false, dest, Ok(c), owner, group, mode, t).out == dry.out
  {
    if !IsLink(fs, dest) && Differs(fs, dest, c.text) {
      if !Exists(fs, dest) {
        var w := WriteFile(h.creds, fs, false, dest, c.source, c.text);
        FollowKept(fs, w.fs, dest);
        assert Exists(w.fs, dest);
      } else if !Exists(fs, t.check) {
        var b := Backup(h.creds, fs, false, dest, t);
        assert b.out == Returned(true);
        FollowKept(fs, b.fs, dest);
        FollowKept(fs, b.fs, c.source);
        BackupNeverClobbers(h.creds, fs, false, dest, t);
        assert Exists(b.fs, c.source);
        var w := WriteFile(h.creds, b.fs, false, dest, c.source, c.text);
        FollowKept(b.fs, w.fs, dest);
        assert Exists(w.fs, dest);
      }
    }
  }
}

=== FILE: engine.dfy ===
/**
 * The convergence engine both revisions share: attribute reconciliation
 * (`_chown`, `_chmod`), change detection (`_diff`), the timestamped backup
 * (`_backup`), the content write (`_edit`), and the `edit` and `visudo`
 * state machines.  The revisions differ only in how they name paths, which
 * backup name they check and copy to, and which caught errors they log;
 * they pass those in.
 */
module Engine {
  import opened Base
  import opened Modes
  import opened Fs
  import opened Accounts
  import Diff

  /** Desired contents and the source-of-truth file they were compiled from. */
  datatype Compiled = Compiled(source: Path, text: string)

  /** The name `_backup` checks for (`exists`) and the name it copies to. */
  datatype BackupTarget = BackupTarget(check: Path, write: Path)

  // ----- _chown / _chmod -------------------------------------------------

  /**
   * `_chown(path, status, owner, group)`: looks both names up (a `KeyError`
   * for an unknown one) and issues `os.chown` only when the uid or gid in
   * `st` differs and this is not a dry run.
   */
  function Chown(h: Host, fs: FileSystem, path: Path, st: Stat, owner: string, group: string, dryrun: bool): (r: Run<bool>)
    ensures r.log == []
    ensures owner !in h.users ==> r == Run(fs, [], Raised(KeyError(owner)))
    ensures owner in h.users && group !in h.groups ==> r == Run(fs, [], Raised(KeyError(group)))
    ensures Resolvable(h, owner, group) && (dryrun || Exists(fs, path)) ==>
      r.out == Returned(h.users[owner].uid != st.uid || h.groups[group] != st.gid)
    ensures dryrun || r.out != Returned(true) ==> r.fs == fs
    ensures !dryrun && r.out == Returned(true) ==>
      && Resolvable(h, owner, group) && Exists(fs, path)
      && r.fs == fs[Target(fs, path) := fs[Target(fs, path)].(uid := h.users[owner].uid, gid := h.groups[group])]
    ensures LinksKept(fs, r.fs)
  {
    if owner !in h.users then Run(fs, [], Raised(KeyError(owner)))
    else if group !in h.groups then Run(fs, [], Raised(KeyError(group)))
    else
      var uid, gid := h.users[owner].uid, h.groups[group];
      if uid != st.uid || gid != st.gid then
        if dryrun then Run(fs, [], Returned(true))
        else match ChownPath(fs, path, uid, gid)
          case Err(e) => Run(fs, [], Raised(e))
          case Ok(fs') => Run(fs', [], Returned(true))
      else Run(fs, [], Returned(false))
  }

  /**
   * `_chmod(path, status, mode)`: issues `os.chmod` only when `mode` differs
   * from `S_IMODE(st_mode)` and this is not a dry run.
   */
  function Chmod(fs: FileSystem, path: Path, st: Stat, mode: Mode, dryrun: bool): (r: Run<bool>)
    ensures r.log == []
    ensures dryrun || Exists(fs, path) ==> r.out == Returned(mode != st.mode)
    ensures dryrun || r.out != Returned(true) ==> r.fs == fs
    ensures !dryrun && r.out == Returned(true) ==>
      Exists(fs, path) && r.fs == fs[Target(fs, path) := fs[Target(fs, path)].(mode := mode)]
    ensures LinksKept(fs, r.fs)
  {
    if mode != st.mode then
      if dryrun then Run(fs, [], Returned(true))
      else match ChmodPath(fs, path, mode)
        case Err(e) => Run(fs, [], Raised(e))
        case Ok(fs') => Run(fs', [], Returned(true))
    else Run(fs, [], Returned(false))
  }

  /** What the attribute block finds to correct in an existing file's stat. */
  predicate Mismatch(h: Host, st: Stat, owner: string, group: string, mode: Mode)
    requires Resolvable(h, owner, group)
  {
    h.users[owner].uid != st.uid || h.groups[group] != st.gid || mode != st.mode
  }

  /**
   * The "Change attributes" block of `edit` and `visudo`: when the path
   * exists, stat it once, then `change |= _chown(...)` and
   * `change |= _chmod(...)` against that one stat.
   */
  function Reconcile(h: Host, fs: FileSystem, dryrun: bool, path: Path, owner: string, group: string, mode: Mode): (r: Run<bool>)
    ensures r.log == []
    ensures !Exists(fs, path) ==> r == Run(fs, [], Returned(false))
    ensures dryrun ==> r.fs == fs
    ensures Exists(fs, path) && !Resolvable(h, owner, group) ==> r.out.Raised? && r.fs == fs
    ensures Exists(fs, path) && Resolvable(h, owner, group) ==>
      r.out == Returned(Mismatch(h, StatOf(fs, path).value, owner, group, mode))
    ensures Exists(fs, path) && Resolvable(h, owner, group) && !dryrun ==>
      var q := Target(fs, path);
      r.fs == fs[q := fs[q].(uid := h.users[owner].uid, gid := h.groups[group], mode := mode)]
    ensures LinksKept(fs, r.fs)
  {
    if !Exists(fs, path) then Run(fs, [], Returned(false))
    else
      var st := StatOf(fs, path).value;
      var a := Chown(h, fs, path, st, owner, group, dryrun);
      match a.out
      case Raised(e) => a
      case Returned(owned) =>
        FollowKept(fs, a.fs, path);
        var b := Chmod(a.fs, path, st, mode, dryrun);
        match b.out
        case Raised(e) => Run(b.fs, [], Raised(e))
        case Returned(moded) => Run(b.fs, [], Returned(owned || moded))
  }

  // ----- _diff ------------------------------------------------------------

  /**
   * `_diff(path, contents)` is truthy: reading the file raises `IOError`
   * (absent, unreadable), or its line list differs from the desired one.
   */
  predicate Differs(fs: FileSystem, path: Path, text: string): (d: bool)
    ensures ReadText(fs, path).Err? ==> d
    ensures ReadText(fs, path) == Ok(text) ==> !d
  {
    match ReadText(fs, path)
    case Err(_) => true
    case Ok(current) => Diff.Lines(current) != Diff.Lines(text)
  }

  /** `_diff` is truthy exactly when the file cannot be read or its text is not the desired text. */
  lemma DiffersIff(fs: FileSystem, path: Path, text: string)
    ensures Differs(fs, path, text) <==> ReadText(fs, path) != Ok(text)
  {
    if ReadText(fs, path).Ok? {
      Diff.SameLinesIffSameText(ReadText(fs, path).value, text);
    }
  }

  // ----- _backup ----------------------------------------------------------

  /**
   * `_backup(path)`: refuses (returns false, copies nothing) when the
   * checked name exists; otherwise copies `from` to the write name with
   * `shutil.copy2` unless this is a dry run, and returns true.
   */
  function Backup(cr: Creds, fs: FileSystem, dryrun: bool, from: Path, t: BackupTarget): (r: Run<bool>)
    ensures Exists(fs, t.check) ==> r == Run(fs, [BackupExists], Returned(false))
    ensures !Exists(fs, t.check) ==> r.log == [] && r.out != Returned(false)
    ensures dryrun && !Exists(fs, t.check) ==> r == Run(fs, [], Returned(true))
    ensures LinksKept(fs, r.fs)
    ensures Outside(fs, r.fs, Slot(fs, t.write))
    ensures Follow(fs, t.write) == Follow(fs, from) ==> r.fs == fs
    ensures r.out.Raised? ==> !r.out.error.OSError?
    ensures fs.Keys <= r.fs.Keys
    ensures !dryrun && r.out == Returned(true) ==>
      && Exists(fs, from) && fs[Target(fs, from)].readable
      && Follow(fs, t.write).Some? && Follow(fs, t.write) != Follow(fs, from)
      && var q := Follow(fs, t.write).value;
         q in r.fs && r.fs[q].File? && r.fs[q].content == fs[Target(fs, from)].content && r.fs[q].mode == fs[Target(fs, from)].mode
    ensures !dryrun && !Exists(fs, t.check) && SameFile(fs, from, t.write) ==>
      r == Run(fs, [], Raised(SameFileError(from)))
    ensures !dryrun && !Exists(fs, t.check) && !SameFile(fs, from, t.write)
            && (!Exists(fs, from) || !fs[Target(fs, from)].readable) ==>
      r == Run(fs, [], Raised(IOError(from)))
    ensures t.check == t.write && !Exists(fs, t.check) && Follow(fs, t.write).Some?
            && Exists(fs, from) && fs[Target(fs, from)].readable ==>
      r.out == Returned(true)
  {
    if Exists(fs, t.check) then Run(fs, [BackupExists], Returned(false))
    else if dryrun then Run(fs, [], Returned(true))
    else
      var c := Copy2(fs, cr, from, t.write);
      match c.out
      case Raised(e) => Run(c.fs, [], Raised(e))
      case Returned(_) => Run(c.fs, [], Returned(true))
  }

  /** When the name checked is the name written, a backup never replaces an existing entry. */
  lemma BackupNeverClobbers(cr: Creds, fs: FileSystem, dryrun: bool, from: Path, t: BackupTarget)
    requires t.check == t.write
    ensures var r := Backup(cr, fs, dryrun, from, t);
      forall k :: k in fs ==> k in r.fs && r.fs[k] == fs[k]
  {
    var r := Backup(cr, fs, dryrun, from, t);
    if !Exists(fs, t.check) && Follow(fs, t.write).Some? {
      assert Follow(fs, t.write).value !in fs;
    }
  }

  // ----- _edit ------------------------------------------------------------

  /**
   * `_edit`: outside a dry run, writes `text` to `dest`, then copies the
   * permission bits of the source-of-truth file onto it (`shutil.copystat`).
   */
  function WriteFile(cr: Creds, fs: FileSystem, dryrun: bool, dest: Path, source: Path, text: string): (r: Run<()>)
    ensures r.log == []
    ensures dryrun ==> r == Run(fs, [], Returned(()))
    ensures LinksKept(fs, r.fs)
    ensures Outside(fs, r.fs, Slot(fs, dest))
    ensures fs.Keys <= r.fs.Keys
    ensures !dryrun && Follow(fs, dest).Some? && Exists(fs, source) ==> r.out.Returned?
    ensures Exists(fs, source) && r.out.Raised? ==> r.out.error == IOError(dest)
    ensures !dryrun && r.out.Returned? ==>
      && Follow(fs, dest).Some?
      && var q := Follow(fs, dest).value;
         && q in r.fs && r.fs[q].File?
         && r.fs[q].content == text
         && (Exists(fs, source) ==> r.fs[q].mode == fs[Target(fs, source)].mode)
         && (q in fs ==> r.fs[q].uid == fs[q].uid && r.fs[q].gid == fs[q].gid && r.fs[q].readable == fs[q].readable)
         && (q !in fs ==> r.fs[q].readable)
  {
    if dryrun then Run(fs, [], Returned(()))
    else match WriteText(fs, cr, dest, text)
      case Err(e) => Run(fs, [], Raised(e))
      case Ok(fs1) =>
        FollowKept(fs, fs1, source);
        FollowKept(fs, fs1, dest);
        match CopyMode(fs1, source, dest)
        case Err(e) => Run(fs1, [], Raised(e))
        case Ok(fs2) => Run(fs2, [], Returned(()))
  }

  // ----- edit -------------------------------------------------------------

  /** The attribute block on `dest`, then `return change` where `change` was `wrote`. */
  function Finish(h: Host, fs: FileSystem, log: seq<Warning>, dryrun: bool, dest: Path,
                  owner: string, group: string, mode: Mode, wrote: bool): (r: Run<Option<bool>>)
    ensures r.log == log
    ensures dryrun ==> r.fs == fs
    ensures LinksKept(fs, r.fs)
    ensures Outside(fs, r.fs, Slot(fs, dest))
    ensures r.fs.Keys == fs.Keys
    ensures !Exists(fs, dest) ==> r == Run(fs, log, Returned(Some(wrote)))
    ensures Exists(fs, dest) && !Resolvable(h, owner, group) ==> r.out.Raised? && r.fs == fs
    ensures Exists(fs, dest) && Resolvable(h, owner, group) ==>
      r.out == Returned(Some(wrote || Mismatch(h, StatOf(fs, dest).value, owner, group, mode)))
    ensures Exists(fs, dest) && Resolvable(h, owner, group) && !dryrun ==>
      var q := Target(fs, dest);
      r.fs == fs[q := fs[q].(uid := h.users[owner].uid, gid := h.groups[group], mode := mode)]
  {
    var a := Reconcile(h, fs, dryrun, dest, owner, group, mode);
    match a.out
    case Raised(e) => Run(a.fs, log, Raised(e))
    case Returned(changed) => Run(a.fs, log, Returned(Some(wrote || changed)))
  }

  /** `_edit(...)`, `change = True`, then the attribute block. */
  function Commit(h: Host, fs: FileSystem, log: seq<Warning>, dryrun: bool, dest: Path, c: Compiled,
                  owner: string, group: string, mode: Mode): (r: Run<Option<bool>>)
    ensures r.log == log
    ensures dryrun ==> r == Finish(h, fs, log, dryrun, dest, owner, group, mode, true)
    ensures LinksKept(fs, r.fs)
    ensures Outside(fs, r.fs, Slot(fs, dest))
  {
    var w := WriteFile(h.creds, fs, dryrun, dest, c.source, c.text);
    match w.out
    case Raised(e) => Run(w.fs, log, Raised(e))
    case Returned(_) =>
      FollowKept(fs, w.fs, dest);
      Finish(h, w.fs, log, dryrun, dest, owner, group, mode, true)
  }

  /**
   * `edit` once the destination's OS path `dest`, its compiled contents (or
   * the error compiling raised) and the backup names are known: refuse a
   * symlink; on a difference take a backup if the file exists and abort
   * (`None`) if that fails; write; reconcile attributes; return whether
   * anything changed.
   */
  function EditCore(h: Host, fs: FileSystem, dryrun: bool, dest: Path, compiled: Result<Compiled>,
                    owner: string, group: string, mode: Mode, t: BackupTarget): (r: Run<Option<bool>>)
    ensures IsLink(fs, dest) ==> r == Run(fs, [LinkRefused], Returned(None))
    ensures !IsLink(fs, dest) && compiled.Err? ==> r == Run(fs, [], Raised(compiled.error))
    ensures !IsLink(fs, dest) && compiled.Ok? && Differs(fs, dest, compiled.value.text)
            && Exists(fs, dest) && Exists(fs, t.check) ==>
      r == Run(fs, [BackupExists], Returned(None))
    ensures dryrun ==> r.fs == fs
    ensures LinksKept(fs, r.fs)
  {
    if IsLink(fs, dest) then Run(fs, [LinkRefused], Returned(None))
    else match compiled
      case Err(e) => Run(fs, [], Raised(e))
      case Ok(c) =>
        if !Differs(fs, dest, c.text) then Finish(h, fs, [], dryrun, dest, owner, group, mode, false)
        else if !Exists(fs, dest) then Commit(h, fs, [], dryrun, dest, c, owner, group, mode)
        else
          var b := Backup(h.creds, fs, dryrun, dest, t);
          match b.out
          case Raised(e) => Run(b.fs, b.log, Raised(e))
          case Returned(ok) =>
            if ok then Commit(h, b.fs, b.log, dryrun, dest, c, owner, group, mode)
            else Run(b.fs, b.log, Returned(None))
  }

  /**
   * After a real `edit` that did not abort, the destination is a readable
   * file holding exactly the desired text, with the desired owner, group
   * and mode.
   */
  lemma EditConverges(h: Host, fs: FileSystem, dest: Path, c: Compiled,
                      owner: string, group: string, mode: Mode, t: BackupTarget)
    requires EditCore(h, fs, false, dest, Ok(c), owner, group, mode, t).out.Returned?
    requires EditCore(h, fs, false, dest, Ok(c), owner, group, mode, t).out.value.Some?
    ensures Resolvable(h, owner, group)
    ensures var r := EditCore(h, fs, false, dest, Ok(c), owner, group, mode, t);
      dest in r.fs && r.fs[dest] == File(c.text, h.users[owner].uid, h.groups[group], mode, true)
  {
    var r := EditCore(h, fs, false, dest, Ok(c), owner, group, mode, t);
    assert !IsLink(fs, dest);
    DiffersIff(fs, dest, c.text);
    if !Differs(fs, dest, c.text) {
      assert Exists(fs, dest) && Target(fs, dest) == dest;
    } else if !Exists(fs, dest) {
      var w := WriteFile(h.creds, fs, false, dest, c.source, c.text);
      FollowKept(fs, w.fs, dest);
      assert Exists(w.fs, dest) && Target(w.fs, dest) == dest;
    } else {
      var b := Backup(h.creds, fs, false, dest, t);
      assert b.out == Returned(true);
      FollowKept(fs, b.fs, dest);
      assert dest !in Slot(fs, t.write);
      assert b.fs[dest] == fs[dest];
      var w := WriteFile(h.creds, b.fs, false, dest, c.source, c.text);
      FollowKept(b.fs, w.fs, dest);
      assert Exists(w.fs, dest) && Target(w.fs, dest) == dest;
    }
  }
}

=== FILE: fs.dfy ===
/**
 * The filesystem the engine reads and changes, as an immutable map from path
 * to entry, and the operating-system calls the engine makes on it.  Paths
 * are plain keys: a relative path is a different key from the absolute path
 * it would name, and a file's parent directory is assumed to exist.
 */
module Fs {
  import opened Base
  import opened Modes

  type Path = string

  /** Linux gives up with ELOOP after following this many symbolic links. */
  const MAXSYMLINKS: nat := 40

  /**
   * A regular file (its text, owner, group, permission bits, and whether
   * opening it for reading succeeds) or a symbolic link.
   */
  datatype Entry =
    | File(content: string, uid: int, gid: int, mode: Mode, readable: bool)
    | Link(target: Path)

  type FileSystem = map<Path, Entry>

  /** The identity and umask of the process running the manifests. */
  datatype Creds = Creds(uid: int, gid: int, umask: Mode)

  /** The part of `os.stat` the engine looks at; `mode` is `S_IMODE(st_mode)`. */
  datatype Stat = Stat(uid: int, gid: int, mode: Mode)

  datatype Errno = ENOENT | EEXIST | ELOOP

  /**
   * Python exceptions the engine can raise: `KeyError` from the user and
   * group databases, `IOError` from `open`, `OSError` from the `os` calls,
   * `shutil.Error` when a copy's ends are one file, and `IndexError` from
   * indexing a path that is too short.
   */
  datatype Error =
    | KeyError(name: string)
    | IOError(path: Path)
    | OSError(path: Path, errno: Errno)
    | SameFileError(path: Path)
    | IndexError

  datatype Result<T> = Ok(value: T) | Err(error: Error)

  /** The warnings the engine logs (their text is not modelled). */
  datatype Warning = LinkRefused | BackupExists | SyntaxRejected | Busy

  /** How a Python call ended: it returned a value or raised. */
  datatype Outcome<T> = Returned(value: T) | Raised(error: Error)

  /** The filesystem after a call, the warnings it logged, and how it ended. */
  datatype Run<T> = Run(fs: FileSystem, log: seq<Warning>, out: Outcome<T>)

  /** `os.path.islink`: the path itself, not followed, is a symbolic link. */
  predicate IsLink(fs: FileSystem, p: Path)
  {
    p in fs && fs[p].Link?
  }

  /** Follows at most `hops` links from `p`; `None` is ELOOP. */
  function Resolve(fs: FileSystem, p: Path, hops: nat): (r: Option<Path>)
    ensures r.Some? ==> !IsLink(fs, r.value)
    decreases hops
  {
    if !IsLink(fs, p) then Some(p)
    else if hops == 0 then None
    else Resolve(fs, fs[p].target, hops - 1)
  }

  /** The path the kernel ends up at when it follows `p`. */
  function Follow(fs: FileSystem, p: Path): (r: Option<Path>)
    ensures r.Some? ==> !IsLink(fs, r.value)
    ensures !IsLink(fs, p) ==> r == Some(p)
  {
    Resolve(fs, p, MAXSYMLINKS)
  }

  /** `os.path.exists`: `p`, followed, names a file. */
  predicate Exists(fs: FileSystem, p: Path)
  {
    Follow(fs, p).Some? && Follow(fs, p).value in fs
  }

  /** The file an existing `p` names. */
  function Target(fs: FileSystem, p: Path): (q: Path)
    requires Exists(fs, p)
    ensures q in fs && fs[q].File?
  {
    Follow(fs, p).value
  }

  /** The one path a write through `p` can land on, if any. */
  function Slot(fs: FileSystem, p: Path): set<Path>
  {
    if Follow(fs, p).Some? then {Follow(fs, p).value} else {}
  }

  function Missing(fs: FileSystem, p: Path): Errno
  {
    if Follow(fs, p).None? then ELOOP else ENOENT
  }

  /** `os.stat`. */
  function StatOf(fs: FileSystem, p: Path): (r: Result<Stat>)
    ensures r.Ok? <==> Exists(fs, p)
    ensures r.Ok? ==> r.value == Stat(fs[Target(fs, p)].uid, fs[Target(fs, p)].gid, fs[Target(fs, p)].mode)
  {
    if Exists(fs, p) then
      var e := fs[Target(fs, p)];
      Ok(Stat(e.uid, e.gid, e.mode))
    else Err(OSError(p, Missing(fs, p)))
  }

  /** `open(p).read()`. */
  function ReadText(fs: FileSystem, p: Path): (r: Result<string>)
    ensures r.Ok? <==> Exists(fs, p) && fs[Target(fs, p)].readable
    ensures r.Ok? ==> r.value == fs[Target(fs, p)].content
  {
    if Exists(fs, p) && fs[Target(fs, p)].readable then Ok(fs[Target(fs, p)].content)
    else Err(IOError(p))
  }

  /**
   * `open(p, 'w').write(text)`: truncates the file `p` leads to, keeping its
   * owner and mode, or creates it owned by the process with mode 0o666 less
   * the umask.
   */
  function WriteText(fs: FileSystem, cr: Creds, p: Path, text: string): (r: Result<FileSystem>)
    ensures r.Ok? <==> Follow(fs, p).Some?
    ensures r.Ok? ==>
      var q := Follow(fs, p).value;
      && q in r.value
      && r.value[q].File? && r.value[q].content == text
      && (q in fs ==> r.value[q] == fs[q].(content := text))
      && (q !in fs ==> r.value[q].readable)
      && r.value == fs[q := r.value[q]]
    ensures r.Ok? ==> LinksKept(fs, r.value)
  {
    match Follow(fs, p)
    case None => Err(IOError(p))
    case Some(q) =>
      if q in fs then Ok(fs[q := fs[q].(content := text)])
      else Ok(fs[q := File(text, cr.uid, cr.gid, 0x1B6 & !cr.umask, true)])
  }

  /** `shutil.copystat(src, dst)`: copies the permission bits (times are not modelled). */
  function CopyMode(fs: FileSystem, src: Path, dst: Path): (r: Result<FileSystem>)
    ensures r.Ok? <==> Exists(fs, src) && Exists(fs, dst)
    ensures r.Ok? ==>
      var q := Target(fs, dst);
      r.value == fs[q := fs[q].(mode := fs[Target(fs, src)].mode)]
    ensures r.Ok? ==> LinksKept(fs, r.value)
  {
    if !Exists(fs, src) then Err(OSError(src, Missing(fs, src)))
    else if !Exists(fs, dst) then Err(OSError(dst, Missing(fs, dst)))
    else
      var q := Target(fs, dst);
      Ok(fs[q := fs[q].(mode := fs[Target(fs, src)].mode)])
  }

  /** `os.path.samefile(src, dst)`: both exist and lead to the same file. */
  predicate SameFile(fs: FileSystem, src: Path, dst: Path)
  {
    Exists(fs, src) && Exists(fs, dst) && Target(fs, src) == Target(fs, dst)
  }

  /**
   * `shutil.copy2(src, dst)`: refuses two ends that are one file before
   * opening either, then copies the text, then the permission bits.
   */
  function Copy2(fs: FileSystem, cr: Creds, src: Path, dst: Path): (r: Run<()>)
    ensures r.log == []
    ensures SameFile(fs, src, dst) ==> r == Run(fs, [], Raised(SameFileError(src)))
    ensures !SameFile(fs, src, dst) && (!Exists(fs, src) || !fs[Target(fs, src)].readable) ==>
      r == Run(fs, [], Raised(IOError(src)))
    ensures Exists(fs, src) && fs[Target(fs, src)].readable && Follow(fs, dst).Some? && !SameFile(fs, src, dst) ==>
      r.out.Returned?
    ensures Follow(fs, dst) == Follow(fs, src) ==> r.fs == fs
    ensures r.out.Raised? ==> !r.out.error.OSError?
    ensures fs.Keys <= r.fs.Keys
    ensures LinksKept(fs, r.fs)
    ensures Outside(fs, r.fs, Slot(fs, dst))
    ensures r.out.Returned? ==>
      && Exists(fs, src) && fs[Target(fs, src)].readable
      && Follow(fs, dst).Some? && Follow(fs, dst) != Follow(fs, src)
      && var q := Follow(fs, dst).value;
         q in r.fs && r.fs[q].File? && r.fs[q].content == fs[Target(fs, src)].content && r.fs[q].mode == fs[Target(fs, src)].mode
  {
    if SameFile(fs, src, dst) then Run(fs, [], Raised(SameFileError(src)))
    else match ReadText(fs, src)
    case Err(e) => Run(fs, [], Raised(e))
    case Ok(text) =>
      match WriteText(fs, cr, dst, text)
        case Err(e) => Run(fs, [], Raised(e))
        case Ok(fs1) =>
          FollowKept(fs, fs1, src);
          FollowKept(fs, fs1, dst);
          match CopyMode(fs1, src, dst)
          case Err(e) => Run(fs1, [], Raised(e))
          case Ok(fs2) => Run(fs2, [], Returned(()))
  }

  /** `os.chown(p, uid, gid)`, which follows links. */
  function ChownPath(fs: FileSystem, p: Path, uid: int, gid: int): (r: Result<FileSystem>)
    ensures r.Ok? <==> Exists(fs, p)
    ensures r.Ok? ==> r.value == fs[Target(fs, p) := fs[Target(fs, p)].(uid := uid, gid := gid)]
    ensures r.Ok? ==> LinksKept(fs, r.value)
  {
    if Exists(fs, p) then Ok(fs[Target(fs, p) := fs[Target(fs, p)].(uid := uid, gid := gid)])
    else Err(OSError(p, Missing(fs, p)))
  }

  /** `os.chmod(p, mode)`, which follows links. */
  function ChmodPath(fs: FileSystem, p: Path, mode: Mode): (r: Result<FileSystem>)
    ensures r.Ok? <==> Exists(fs, p)
    ensures r.Ok? ==> r.value == fs[Target(fs, p) := fs[Target(fs, p)].(mode := mode)]
    ensures r.Ok? ==> LinksKept(fs, r.value)
  {
    if Exists(fs, p) then Ok(fs[Target(fs, p) := fs[Target(fs, p)].(mode := mode)])
    else Err(OSError(p, Missing(fs, p)))
  }

  /**
   * `os.open(p, os.O_CREAT | os.O_EXCL)`: fails with EEXIST when anything,
   * even a dangling link, is at `p`; otherwise creates an empty file with
   * mode 0o777 less the umask.
   */
  function CreateExclusive(fs: FileSystem, cr: Creds, p: Path): (r: Result<FileSystem>)
    ensures p in fs ==> r == Err(OSError(p, EEXIST))
    ensures p !in fs ==> r.Ok? && p in r.value && r.value[p].File? && r.value == fs[p := r.value[p]]
    ensures r.Ok? ==> LinksKept(fs, r.value)
  {
    if p in fs then Err(OSError(p, EEXIST))
    else Ok(fs[p := File("", cr.uid, cr.gid, 0x1FF & !cr.umask, true)])
  }

  /** `os.remove(p)`: unlinks `p` itself. */
  function Remove(fs: FileSystem, p: Path): (r: Result<FileSystem>)
    ensures r.Ok? <==> p in fs
    ensures r.Ok? ==> r.value == fs - {p}
    ensures r.Ok? && !IsLink(fs, p) ==> LinksKept(fs, r.value)
  {
    if p in fs then Ok(fs - {p}) else Err(OSError(p, ENOENT))
  }

  /** A step that keeps the links and removes nothing keeps every existing path's file. */
  lemma ExistsKept(fs: FileSystem, fs': FileSystem, p: Path)
    requires LinksKept(fs, fs') && fs.Keys <= fs'.Keys
    requires Exists(fs, p)
    ensures Exists(fs', p) && Target(fs', p) == Target(fs, p)
  {
    FollowKept(fs, fs', p);
  }

  /** Every symbolic link of `fs` is in `fs'` unchanged, and `fs'` has no others. */
  ghost predicate LinksKept(fs: FileSystem, fs': FileSystem)
  {
    && (forall k :: IsLink(fs, k) <==> IsLink(fs', k))
    && (forall k :: IsLink(fs, k) ==> fs'[k] == fs[k])
  }

  lemma LinksKeptTrans(fs1: FileSystem, fs2: FileSystem, fs3: FileSystem)
    requires LinksKept(fs1, fs2) && LinksKept(fs2, fs3)
    ensures LinksKept(fs1, fs3)
  {
  }

  /** Creating a file at a free path and removing it again leaves nothing behind. */
  lemma AddThenRemove(fs: FileSystem, p: Path, e: Entry)
    requires p !in fs
    ensures fs[p := e] - {p} == fs
  {
    assert (fs[p := e] - {p}).Keys == fs.Keys;
  }

  /** Outside the paths in `s`, `fs'` has exactly the entries of `fs`. */
  ghost predicate Outside(fs: FileSystem, fs': FileSystem, s: set<Path>)
  {
    forall k :: k !in s ==> (k in fs <==> k in fs') && (k in fs ==> fs'[k] == fs[k])
  }

  /** While the links are kept, every path leads where it led before. */
  lemma FollowKept(fs: FileSystem, fs': FileSystem, p: Path)
    requires LinksKept(fs, fs')
    ensures Follow(fs', p) == Follow(fs, p)
  {
    ResolveUnderSameLinks(fs, fs', p, MAXSYMLINKS);
  }

  /** `fs1` and `fs2` have the same symbolic links, pointing at the same places. */
  ghost predicate SameLinks(fs1: FileSystem, fs2: FileSystem)
  {
    forall p :: IsLink(fs1, p) <==> IsLink(fs2, p)
  }

  /** Files may come, go and change: as long as links stay, every path resolves as before. */
  lemma {:induction false} ResolveUnderSameLinks(fs1: FileSystem, fs2: FileSystem, p: Path, hops: nat)
    requires SameLinks(fs1, fs2)
    requires forall q :: IsLink(fs1, q) ==> fs2[q] == fs1[q]
    ensures Resolve(fs2, p, hops) == Resolve(fs1, p, hops)
    decreases hops
  {
    if IsLink(fs1, p) && hops > 0 {
      assert IsLink(fs2, p);
      ResolveUnderSameLinks(fs1, fs2, fs1[p].target, hops - 1);
    }
  }

  /** Replacing or adding a file at a path that is not a link keeps every path's resolution. */
  lemma FollowAfterFileUpdate(fs: FileSystem, q: Path, e: Entry, p: Path)
    requires !IsLink(fs, q) && e.File?
    ensures Follow(fs[q := e], p) == Follow(fs, p)
  {
    var fs2 := fs[q := e];
    assert SameLinks(fs, fs2);
    ResolveUnderSameLinks(fs, fs2, p, MAXSYMLINKS);
  }

  /** Removing a file (not a link) keeps every path's resolution. */
  lemma FollowAfterFileRemoval(fs: FileSystem, q: Path, p: Path)
    requires !IsLink(fs, q)
    ensures Follow(fs - {q}, p) == Follow(fs, p)
  {
    var fs2 := fs - {q};
    assert SameLinks(fs, fs2);
    ResolveUnderSameLinks(fs, fs2, p, MAXSYMLINKS);
  }
}

=== FILE: globals.dfy ===
/**
 * What both revisions share besides the engine: the `__muppet__` globals
 * and outside world an operation consults, and the name `_backup` gives a
 * copy.
 */
module Globals {
  import opened Base
  import opened Fs
  import Stamps

  /**
   * What the `__muppet__` globals and the outside world supply: the
   * manifests' directory, the dry-run flag, the clock, the template
   * renderer and the sudoers syntax checker (its exit status, `None` when
   * it cannot be spawned).
   */
  datatype Env = Env(directory: Path, dryrun: bool, now: Stamps.DateTime,
                     render: string -> string, check: string -> Option<int>)

  /** `moved = '%s-%s~' % (path, datetime.now().strftime('%Y%m%d_%H%M%S'))`. */
  function BackupName(path: Path, now: Stamps.DateTime): (moved: Path)
    ensures |moved| == |path| + 17 && moved[..|path|] == path
  {
    path + "-" + Stamps.Format(now) + "~"
  }

  /** A backup name gives back the file it backs up and the moment it was taken. */
  lemma BackupNameParses(path: Path, now: Stamps.DateTime)
    ensures var moved := BackupName(path, now);
      moved[..|path|] == path && moved[|path|] == '-' && moved[|moved| - 1] == '~'
      && Stamps.Parse(moved[|path| + 1..|moved| - 1]) == Some(now)
  {
    var moved := BackupName(path, now);
    assert moved[|path| + 1..|moved| - 1] == Stamps.Format(now);
    Stamps.ParseFormat(now);
  }

  /** Backups taken at different moments have different names. */
  lemma BackupNamesDistinct(path: Path, t1: Stamps.DateTime, t2: Stamps.DateTime)
    requires t1 != t2
    ensures BackupName(path, t1) != BackupName(path, t2)
  {
    BackupNameParses(path, t1);
    BackupNameParses(path, t2);
  }
}

=== FILE: legacy.dfy ===
/**
 * The older revision (`functions.py`): every path is used as given (no
 * `expanduser`), every source of truth lives under `files/root/` at the
 * path minus its first character, contents are always rendered as a
 * template, any `OSError` in `visudo` is logged as "busy", and `visudo`
 * ends without a `return`.
 */
module Legacy {
  import opened Base
  import opened Modes
  import opened Fs
  import opened Accounts
  import opened Engine
  import opened Sudoers
  import opened Globals
  import EditLaws
  import SudoersLaws
  import Packaged

  /** `FILES % (__muppet__['_directory'], path[1:])`; slicing never raises. */
  function SourcePath(directory: Path, path: Path): (src: Path)
    ensures |src| == |directory| + 12 + (if path == "" then 0 else |path| - 1)
    ensures src[..|directory| + 12] == directory + "/files/root/"
    ensures path != "" ==> src[|directory| + 12..] == path[1..]
  {
    directory + "/files/root/" + (if path == "" then "" else path[1..])
  }

  /** `_template(path)`: the source of truth rendered as a template. */
  function Compile(fs: FileSystem, env: Env, path: Path): (r: Result<Compiled>)
    ensures r.Ok? <==> ReadText(fs, SourcePath(env.directory, path)).Ok?
    ensures r.Err? ==> r.error == IOError(SourcePath(env.directory, path))
    ensures r.Ok? ==> r.value == Compiled(SourcePath(env.directory, path), env.render(ReadText(fs, SourcePath(env.directory, path)).value))
  {
    match ReadText(fs, SourcePath(env.directory, path))
    case Err(e) => Err(e)
    case Ok(text) => Ok(Compiled(SourcePath(env.directory, path), env.render(text)))
  }

  /** The backup names: checked and copied to alike. */
  function BackupFor(path: Path, env: Env): (t: BackupTarget)
    ensures t.check == t.write == BackupName(path, env.now)
  {
    BackupTarget(BackupName(path, env.now), BackupName(path, env.now))
  }

  /** `_chown(path, status, owner, group)` on the path as given. */
  function Chown(h: Host, fs: FileSystem, env: Env, path: Path, st: Stat, owner: string, group: string): (r: Run<bool>)
    ensures Resolvable(h, owner, group) && !env.dryrun && Exists(fs, path) ==>
      var q := Target(fs, path);
      && r.out == Returned(h.users[owner].uid != st.uid || h.groups[group] != st.gid)
      && (r.out == Returned(true) ==> r.fs == fs[q := fs[q].(uid := h.users[owner].uid, gid := h.groups[group])])
    ensures env.dryrun ==> r.fs == fs
  {
    Engine.Chown(h, fs, path, st, owner, group, env.dryrun)
  }

  /** `_chmod(path, status, mode)` on the path as given. */
  function Chmod(fs: FileSystem, env: Env, path: Path, st: Stat, mode: Mode): (r: Run<bool>)
    ensures !env.dryrun && Exists(fs, path) ==>
      var q := Target(fs, path);
      && r.out == Returned(mode != st.mode)
      && (r.out == Returned(true) ==> r.fs == fs[q := fs[q].(mode := mode)])
    ensures env.dryrun ==> r.fs == fs
  {
    Engine.Chmod(fs, path, st, mode, env.dryrun)
  }

  /** `_backup(path)`: never replaces an existing entry. */
  function Backup(cr: Creds, fs: FileSystem, env: Env, path: Path): (r: Run<bool>)
    ensures forall k :: k in fs ==> k in r.fs && r.fs[k] == fs[k]
    ensures Exists(fs, BackupName(path, env.now)) ==> r == Run(fs, [BackupExists], Returned(false))
    ensures !env.dryrun && r.out == Returned(true) ==>
      && Exists(fs, path) && Follow(fs, BackupName(path, env.now)).Some?
      && var q := Follow(fs, BackupName(path, env.now)).value;
         q !in fs && q in r.fs && r.fs[q].File? && r.fs[q].content == fs[Target(fs, path)].content
  {
    BackupNeverClobbers(cr, fs, env.dryrun, path, BackupFor(path, env));
    Engine.Backup(cr, fs, env.dryrun, path, BackupFor(path, env))
  }

  /** `_edit(path, contents)`: writes the path, then copies the source of truth's permission bits. */
  function EditFile(cr: Creds, fs: FileSystem, env: Env, path: Path, text: string): (r: Run<()>)
    ensures env.dryrun ==> r == Run(fs, [], Returned(()))
    ensures !env.dryrun && Follow(fs, path).Some? && Exists(fs, SourcePath(env.directory, path)) ==>
      r.out.Returned?
      && var q := Follow(fs, path).value;
         q in r.fs && r.fs[q].File? && r.fs[q].content == text
         && r.fs[q].mode == fs[Target(fs, SourcePath(env.directory, path))].mode
  {
    WriteFile(cr, fs, env.dryrun, path, SourcePath(env.directory, path), text)
  }

  /** `edit(path, owner, group, mode)`. */
  function Edit(h: Host, fs: FileSystem, env: Env, path: Path, owner: string, group: string, mode: Mode): (r: Run<Option<bool>>)
    ensures IsLink(fs, path) ==> r == Run(fs, [LinkRefused], Returned(None))
    ensures !IsLink(fs, path) && ReadText(fs, SourcePath(env.directory, path)).Err? ==>
      r == Run(fs, [], Raised(IOError(SourcePath(env.directory, path))))
    ensures env.dryrun ==> r.fs == fs
  {
    EditCore(h, fs, env.dryrun, path, Compile(fs, env, path), owner, group, mode, BackupFor(path, env))
  }

  /**
   * `edit` on a differing file that exists is `_backup`, then `_edit`, then
   * the attribute block: the abort on a refused backup, the exceptions of
   * either step, and otherwise the attributes of the written file.
   */
  lemma EditTakesSteps(h: Host, fs: FileSystem, env: Env, path: Path, owner: string, group: string, mode: Mode)
    requires var c := Compile(fs, env, path);
      !IsLink(fs, path) && c.Ok? && Differs(fs, path, c.value.text) && Exists(fs, path)
    ensures var text := Compile(fs, env, path).value.text;
      var b := Backup(h.creds, fs, env, path);
      var w := EditFile(h.creds, b.fs, env, path, text);
      var r := Edit(h, fs, env, path, owner, group, mode);
      && (b.out.Raised? ==> r == Run(b.fs, b.log, Raised(b.out.error)))
      && (b.out == Returned(false) ==> r == Run(b.fs, b.log, Returned(None)))
      && (b.out == Returned(true) && w.out.Raised? ==> r == Run(w.fs, b.log, Raised(w.out.error)))
      && (b.out == Returned(true) && w.out.Returned? ==> r == Finish(h, w.fs, b.log, env.dryrun, path, owner, group, mode, true))
  {
  }

  /**
   * On an absolute path with templated contents the two revisions do the
   * same thing: same warnings, same result, same filesystem.
   */
  lemma EditAgreesWithPackaged(h: Host, fs: FileSystem, env: Env, path: Path, owner: string, group: string, mode: Mode)
    requires path != "" && path[0] == '/'
    ensures Edit(h, fs, env, path, owner, group, mode) == Packaged.Edit(h, fs, env, path, owner, group, mode, false)
  {
    Packaged.SystemFileMirrorsSource(h, env.directory, owner, path);
    Packaged.BackupNamesAgreeOffHome(h, path, env.now);
    assert BackupName(path, env.now)[0] == '/';
  }

  /**
   * After a real `edit` that did not abort, `edit` again (at any later
   * time, real or dry) changes nothing and returns false, provided the
   * source of truth is not the edited file itself.
   */
  lemma EditIdempotent(h: Host, fs: FileSystem, env: Env, path: Path, owner: string, group: string, mode: Mode, env2: Env)
    requires !env.dryrun && env2.directory == env.directory && env2.render == env.render
    requires Follow(fs, SourcePath(env.directory, path)) != Some(path)
    requires var r := Edit(h, fs, env, path, owner, group, mode); r.out.Returned? && r.out.value.Some?
    ensures var fs1 := Edit(h, fs, env, path, owner, group, mode).fs;
      Edit(h, fs1, env2, path, owner, group, mode) == Run(fs1, [], Returned(Some(false)))
  {
    var t := BackupFor(path, env);
    var c := Compile(fs, env, path);
    var fs1 := EditCore(h, fs, false, path, c, owner, group, mode, t).fs;
    assert c.Ok?;
    var src := c.value.source;
    EditLaws.EditKeepsOtherFiles(h, fs, false, path, c, owner, group, mode, t);
    FollowKept(fs, fs1, src);
    var k := Target(fs, src);
    assert fs1[k] == fs[k];
    assert Compile(fs1, env2, path) == c;
    EditLaws.EditIdempotent(h, fs, path, c.value, owner, group, mode, t, env2.dryrun, BackupFor(path, env2));
  }

  // ----- visudo -------------------------------------------------------------

  /** The sudoers transaction, any `OSError` logged as "busy". */
  function VisudoRun(h: Host, fs: FileSystem, env: Env, filename: string): (r: Run<Option<bool>>)
    ensures env.dryrun ==> r.fs == fs
    ensures var path := Packaged.SudoersPath(filename);
      var c := Compile(fs, env, path);
      c.Ok? && Differs(fs, path, c.value.text) && env.check(c.value.text).None? ==> r.log == [Busy]
    ensures r.out == Returned(None) ==> r.log == [BackupExists]
  {
    var path := Packaged.SudoersPath(filename);
    VisudoCore(h, fs, env.dryrun, path, Compile(fs, env, path), env.check, BackupFor(path, env), path + ".tmp", AnyOSError)
  }

  /** `visudo(filename)` as written: no `return change`, so a completed call yields `None`. */
  function Visudo(h: Host, fs: FileSystem, env: Env, filename: string): (r: Run<Option<bool>>)
    ensures r.fs == VisudoRun(h, fs, env, filename).fs && r.log == VisudoRun(h, fs, env, filename).log
    ensures r.out.Returned? ==> r.out.value == None
  {
    var r := VisudoRun(h, fs, env, filename);
    match r.out
    case Raised(e) => r
    case Returned(_) => Run(r.fs, r.log, Returned(None))
  }

  /** `visudo(filename)` ending with `return change`, as `edit` does. */
  function VisudoFixed(h: Host, fs: FileSystem, env: Env, filename: string): (r: Run<Option<bool>>)
    ensures r.out.Returned? && r.out.value.None? ==> r.log == [BackupExists]
  {
    VisudoRun(h, fs, env, filename)
  }

  /**
   * A real `visudo` that writes the sudoers file: as written the caller is
   * told nothing (`None`), although the file now holds the new text; the
   * fixed version reports the change.
   */
  lemma VisudoLosesChange(h: Host, fs: FileSystem, env: Env, filename: string)
    requires !env.dryrun
    requires var path := Packaged.SudoersPath(filename);
      var c := Compile(fs, env, path);
      && c.Ok? && Exists(fs, c.value.source)
      && WriteAllowed(fs, path, c.value, env.check(c.value.text), BackupFor(path, env), path + ".tmp")
      && Follow(fs, path) != Some(path + ".tmp")
      && !IsLink(fs, BackupName(path, env.now))
    requires VisudoRun(h, fs, env, filename).out.Returned?
    ensures var path := Packaged.SudoersPath(filename);
      && Visudo(h, fs, env, filename).out == Returned(None)
      && VisudoFixed(h, fs, env, filename).out == Returned(Some(true))
      && ReadText(Visudo(h, fs, env, filename).fs, path) == Ok(Compile(fs, env, path).value.text)
  {
    var path := Packaged.SudoersPath(filename);
    var moved := BackupName(path, env.now);
    var lock := path + ".tmp";
    assert moved != lock by { assert moved[|path|] != lock[|path|]; }
    var c := Compile(fs, env, path).value;
    SudoersLaws.VisudoWrites(h, fs, path, c, env.check, BackupFor(path, env), lock, AnyOSError);
  }
}

=== FILE: modes.dfy ===
/**
 * Permission bits and the `MODES` tables of both revisions.
 * A `Mode` is what `stat.S_IMODE` reports: the nine rwx bits plus the
 * set-uid, set-gid and sticky bits, twelve bits in all.
 */
module Modes {

  type Mode = bv12

  const S_IRUSR: Mode := 0x100  // 0o400
  const S_IWUSR: Mode := 0x80   // 0o200
  const S_IXUSR: Mode := 0x40   // 0o100
  const S_IRGRP: Mode := 0x20   // 0o040
  const S_IROTH: Mode := 0x4    // 0o004

  /** Bit `b` (0 = other-execute, 8 = owner-read) is set in `m`. */
  predicate HasBit(m: Mode, b: nat)
    requires b < 12
  {
    (m >> b) & 1 == 1
  }

  /**
   * A symbolic key such as `-rw-r--r--` agrees with `m`: it has a type
   * character and nine permission characters, and character `i` is not `-`
   * exactly when the bit it names is set.
   */
  predicate Consistent(key: string, m: Mode)
  {
    && |key| == 10
    && forall i :: 1 <= i <= 9 ==> (key[i] != '-' <==> HasBit(m, 9 - i))
  }

  /** The `ls -l` rendering of the nine permission bits of a regular file. */
  function Symbolic(m: Mode): (s: string)
    ensures |s| == 10
  {
    "-" + seq(9, i requires 0 <= i < 9 => if HasBit(m, 8 - i) then "rwxrwxrwx"[i] else '-')
  }

  /** `MODES` of muppet/functions.py. */
  const PackagedModes: map<string, Mode> := map[
    "-rw-r--r--" := S_IRUSR | S_IWUSR | S_IRGRP | S_IROTH,
    "-rwxr--r--" := S_IRUSR | S_IWUSR | S_IXUSR | S_IRGRP | S_IROTH,
    "-r--r-----" := S_IRUSR | S_IRGRP,
    "-r-xr--r--" := S_IRUSR | S_IXUSR | S_IRGRP | S_IROTH,
    "-rw-------" := S_IRUSR | S_IWUSR
  ]

  /** `MODES` of the older functions.py. */
  const LegacyModes: map<string, Mode> := map[
    "-rw-r--r--" := S_IRUSR | S_IWUSR | S_IRGRP | S_IROTH,
    "-rwxr--r--" := S_IRUSR | S_IWUSR | S_IXUSR | S_IRGRP | S_IROTH,
    "-r--r-----" := S_IRUSR | S_IRGRP
  ]

  /** The mode every sudoers drop-in is forced to: `MODES['-r--r-----']`, 0o440. */
  const SudoersMode: Mode := PackagedModes["-r--r-----"]

  /** Checks `Consistent` one permission character at a time. */
  lemma ConsistentByCases(key: string, m: Mode)
    requires |key| == 10
    requires key[1] != '-' <==> HasBit(m, 8)
    requires key[2] != '-' <==> HasBit(m, 7)
    requires key[3] != '-' <==> HasBit(m, 6)
    requires key[4] != '-' <==> HasBit(m, 5)
    requires key[5] != '-' <==> HasBit(m, 4)
    requires key[6] != '-' <==> HasBit(m, 3)
    requires key[7] != '-' <==> HasBit(m, 2)
    requires key[8] != '-' <==> HasBit(m, 1)
    requires key[9] != '-' <==> HasBit(m, 0)
    ensures Consistent(key, m)
  {
  }

  /** Every key of the packaged table is the symbolic spelling of its value. */
  lemma PackagedModesConsistent()
    ensures SudoersMode == 0x120
    ensures forall k :: k in PackagedModes ==> Consistent(k, PackagedModes[k])
    ensures forall k :: k in PackagedModes ==> Symbolic(PackagedModes[k]) == k
  {
    ConsistentByCases("-rw-r--r--", 0x1A4);
    ConsistentByCases("-rwxr--r--", 0x1E4);
    ConsistentByCases("-r--r-----", 0x120);
    ConsistentByCases("-r-xr--r--", 0x164);
    ConsistentByCases("-rw-------", 0x180);
  }

  /** Every key of the older table is the symbolic spelling of its value. */
  lemma LegacyModesConsistent()
    ensures forall k :: k in LegacyModes ==> Consistent(k, LegacyModes[k])
    ensures forall k :: k in LegacyModes ==> Symbolic(LegacyModes[k]) == k
  {
    ConsistentByCases("-rw-r--r--", 0x1A4);
    ConsistentByCases("-rwxr--r--", 0x1E4);
    ConsistentByCases("-r--r-----", 0x120);
  }

  /** The older table is the packaged one restricted to its three keys. */
  lemma LegacyModesArePackagedModes()
    ensures forall k :: k in LegacyModes ==> k in PackagedModes && PackagedModes[k] == LegacyModes[k]
  {
  }
}

=== FILE: packaged.dfy ===
/**
 * The packaged revision (`muppet/functions.py`): `edit` takes a `~/...`
 * path as the owner's file and reads its source of truth from
 * `files/user/`, every other path from `files/root/`; contents are copied
 * verbatim or rendered as a template; every OS call goes through
 * `expanduser`.
 */
module Packaged {
  import opened Base
  import opened Modes
  import opened Fs
  import opened Accounts
  import opened Engine
  import opened Sudoers
  import EditLaws
  import SudoersLaws
  import Stamps
  import opened Globals

  /** `ROOT` and `USER`: where a system-wide or a per-user file's source lives. */
  datatype Scope = SystemWide | UserWide

  function Tree(scope: Scope): string
  {
    match scope
    case SystemWide => "/files/root/"
    case UserWide => "/files/user/"
  }

  /**
   * `_scope(owner, path)`: a path starting with `~` names the owner's
   * file, so `~` becomes `~owner`; an empty path raises `IndexError`.
   */
  function ScopeOf(owner: string, path: Path): (r: Result<(Scope, Path)>)
    ensures r.Err? <==> path == ""
    ensures r.Ok? ==> |r.value.1| >= |path| && r.value.1[1 + |r.value.1| - |path|..] == path[1..]
    ensures r.Ok? ==> (r.value.0 == UserWide <==> path[0] == '~')
    ensures r.Ok? && r.value.0 == SystemWide ==> r.value.1 == path
    ensures r.Ok? && r.value.0 == UserWide ==>
      |r.value.1| == |owner| + |path| && r.value.1[..|owner| + 1] == "~" + owner
  {
    if path == "" then Err(IndexError)
    else if path[0] == '~' then Ok((UserWide, "~" + owner + path[1..]))
    else Ok((SystemWide, path))
  }

  /** `path.split('/', 1)[1]`: what follows the first `/`, `IndexError` when there is none. */
  function AfterFirstSlash(path: Path): (r: Result<Path>)
    ensures r.Ok? <==> '/' in path
    ensures r.Ok? ==> exists i :: 0 <= i < |path| && path[i] == '/' && '/' !in path[..i] && r.value == path[i + 1..]
  {
    var i := SlashFrom(path, 0);
    if i == |path| then
      assert '/' !in path[..i];
      Err(IndexError)
    else
      assert '/' !in path[..i];
      Ok(path[i + 1..])
  }

  /** `scope % (__muppet__['_directory'], path.split('/', 1)[1])`. */
  function SourcePath(directory: Path, scope: Scope, path: Path): (r: Result<Path>)
    ensures r.Ok? <==> '/' in path
  {
    match AfterFirstSlash(path)
    case Err(e) => Err(e)
    case Ok(rest) => Ok(directory + Tree(scope) + rest)
  }

  /**
   * A `~/rest` path of `owner` is the file `rest` under the owner's home,
   * and its source of truth is `rest` under `files/user/`.
   */
  lemma UserFileMirrorsSource(h: Host, directory: Path, owner: string, rest: string)
    requires owner in h.users && owner != "" && '/' !in owner
    requires h.users[owner].dir != "" && h.users[owner].dir[|h.users[owner].dir| - 1] != '/'
    ensures var s := ScopeOf(owner, "~/" + rest);
      && s == Ok((UserWide, "~" + owner + "/" + rest))
      && ExpandUser(h, s.value.1) == h.users[owner].dir + "/" + rest
      && SourcePath(directory, s.value.0, s.value.1) == Ok(directory + "/files/user/" + rest)
  {
    var scoped := "~" + owner + "/" + rest;
    assert ("~/" + rest)[1..] == "/" + rest;
    assert "~" + owner + ("~/" + rest)[1..] == scoped;
    ExpandUserHome(h, owner, rest);
    assert SlashFrom(scoped, 0) == 1 + |owner| by {
      assert forall k :: 0 <= k < 1 + |owner| ==> scoped[k] != '/' by {
        forall k | 0 <= k < 1 + |owner| ensures scoped[k] != '/' {
          if k > 0 { assert scoped[k] == owner[k - 1]; }
        }
      }
      assert scoped[1 + |owner|] == '/';
      SlashFromFirst(scoped, 0, 1 + |owner|);
    }
    assert scoped[1 + |owner| + 1..] == rest;
  }

  /** An absolute path is its own file, and its source of truth is the same path under `files/root/`. */
  lemma SystemFileMirrorsSource(h: Host, directory: Path, owner: string, path: Path)
    requires path != "" && path[0] == '/'
    ensures var s := ScopeOf(owner, path);
      && s == Ok((SystemWide, path))
      && ExpandUser(h, path) == path
      && SourcePath(directory, SystemWide, path) == Ok(directory + "/files/root/" + path[1..])
  {
    assert SlashFrom(path, 0) == 0;
  }

  lemma SlashFromFirst(s: string, i: nat, j: nat)
    requires i <= j < |s| && s[j] == '/'
    requires forall k :: i <= k < j ==> s[k] != '/'
    ensures SlashFrom(s, i) == j
    decreases j - i
  {
    if i < j {
      SlashFromFirst(s, i + 1, j);
    }
  }

  /**
   * `_contents(scope, path, verbatim)`: the source of truth read as it is,
   * or rendered as a template (the template engine reads the same file).
   */
  function Compile(fs: FileSystem, env: Env, scope: Scope, path: Path, verbatim: bool): (r: Result<Compiled>)
    ensures '/' !in path ==> r == Err(IndexError)
    ensures r.Ok? ==> SourcePath(env.directory, scope, path) == Ok(r.value.source)
    ensures r.Ok? ==> ReadText(fs, r.value.source).Ok?
    ensures r.Ok? ==> r.value.text == if verbatim then ReadText(fs, r.value.source).value
                                      else env.render(ReadText(fs, r.value.source).value)
    ensures SourcePath(env.directory, scope, path).Ok? && ReadText(fs, SourcePath(env.directory, scope, path).value).Err? ==>
      r == Err(IOError(SourcePath(env.directory, scope, path).value))
  {
    match SourcePath(env.directory, scope, path)
    case Err(e) => Err(e)
    case Ok(source) =>
      match ReadText(fs, source)
      case Err(e) => Err(e)
      case Ok(text) => Ok(Compiled(source, if verbatim then text else env.render(text)))
  }

  /** The backup names `_backup` uses with the check and the copy on the same, expanded, name. */
  function BackupFor(h: Host, path: Path, now: Stamps.DateTime): (t: BackupTarget)
    ensures t.check == t.write
  {
    var moved := ExpandUser(h, BackupName(path, now));
    BackupTarget(moved, moved)
  }

  /** The backup names as written: `exists(expanduser(moved))` but `shutil.copy2(..., moved)`. */
  function BackupForAsWritten(h: Host, path: Path, now: Stamps.DateTime): (t: BackupTarget)
    ensures t.write == BackupName(path, now)
    ensures t.check == ExpandUser(h, t.write)
  {
    var moved := BackupName(path, now);
    BackupTarget(ExpandUser(h, moved), moved)
  }

  /** A path not starting with `~` is backed up under the same names either way. */
  lemma BackupNamesAgreeOffHome(h: Host, path: Path, now: Stamps.DateTime)
    requires path != "" && path[0] != '~'
    ensures BackupForAsWritten(h, path, now) == BackupFor(h, path, now)
  {
    assert BackupName(path, now)[0] == path[0];
  }

  // ----- _chown / _chmod / _backup / _edit ---------------------------------

  /** `_chown(path, status, owner, group)`: the change lands on the file `expanduser(path)` names. */
  function Chown(h: Host, fs: FileSystem, env: Env, path: Path, st: Stat, owner: string, group: string): (r: Run<bool>)
    ensures Resolvable(h, owner, group) && !env.dryrun && Exists(fs, ExpandUser(h, path)) ==>
      var q := Target(fs, ExpandUser(h, path));
      && r.out == Returned(h.users[owner].uid != st.uid || h.groups[group] != st.gid)
      && (r.out == Returned(true) ==> r.fs == fs[q := fs[q].(uid := h.users[owner].uid, gid := h.groups[group])])
    ensures env.dryrun ==> r.fs == fs
  {
    Engine.Chown(h, fs, ExpandUser(h, path), st, owner, group, env.dryrun)
  }

  /** `_chmod(path, status, mode)`: the change lands on the file `expanduser(path)` names. */
  function Chmod(h: Host, fs: FileSystem, env: Env, path: Path, st: Stat, mode: Mode): (r: Run<bool>)
    ensures !env.dryrun && Exists(fs, ExpandUser(h, path)) ==>
      var q := Target(fs, ExpandUser(h, path));
      && r.out == Returned(mode != st.mode)
      && (r.out == Returned(true) ==> r.fs == fs[q := fs[q].(mode := mode)])
    ensures env.dryrun ==> r.fs == fs
  {
    Engine.Chmod(fs, ExpandUser(h, path), st, mode, env.dryrun)
  }

  /** `_backup(path)` with the copy made to the name it checked. */
  function Backup(h: Host, fs: FileSystem, env: Env, path: Path): (r: Run<bool>)
    ensures forall k :: k in fs ==> k in r.fs && r.fs[k] == fs[k]
    ensures Exists(fs, ExpandUser(h, BackupName(path, env.now))) ==> r == Run(fs, [BackupExists], Returned(false))
  {
    BackupNeverClobbers(h.creds, fs, env.dryrun, ExpandUser(h, path), BackupFor(h, path, env.now));
    Engine.Backup(h.creds, fs, env.dryrun, ExpandUser(h, path), BackupFor(h, path, env.now))
  }

  /** `_backup(path)` as written: checks the expanded name, copies to the name unexpanded. */
  function BackupAsWritten(h: Host, fs: FileSystem, env: Env, path: Path): (r: Run<bool>)
    ensures Exists(fs, ExpandUser(h, BackupName(path, env.now))) ==> r == Run(fs, [BackupExists], Returned(false))
  {
    Engine.Backup(h.creds, fs, env.dryrun, ExpandUser(h, path), BackupForAsWritten(h, path, env.now))
  }

  /**
   * As written, `_backup` overwrites whatever is at the literal backup name
   * whenever the expanded name it checks is free: the check and the copy
   * look at different files.
   */
  lemma BackupAsWrittenClobbers(h: Host, fs: FileSystem, env: Env, path: Path)
    requires !env.dryrun
    requires var t := BackupForAsWritten(h, path, env.now);
      !Exists(fs, t.check) && t.write in fs && fs[t.write].File?
    requires Exists(fs, ExpandUser(h, path)) && fs[Target(fs, ExpandUser(h, path))].readable
    requires Target(fs, ExpandUser(h, path)) != BackupName(path, env.now)
    ensures var moved := BackupName(path, env.now);
      var r := BackupAsWritten(h, fs, env, path);
      && r.out == Returned(true) && moved in r.fs
      && r.fs[moved].content == fs[Target(fs, ExpandUser(h, path))].content
  {
    var moved := BackupName(path, env.now);
    assert Follow(fs, moved) == Some(moved);
  }

  /** A user with a home directory, for the instance below. */
  function Alice(): Host
  {
    Host(map["alice" := Passwd(1000, "/home/alice")], map["alice" := 1000], "/root", Creds(0, 0, 0x12))
  }

  /**
   * The premises above are met: backing up `~alice/.bashrc` while a file
   * of the literal name `~alice/.bashrc-<stamp>~` exists (relative to the
   * working directory) destroys that file's text.
   */
  lemma BackupAsWrittenClobbersAlice(env: Env)
    requires !env.dryrun
    ensures var moved := BackupName("~alice/.bashrc", env.now);
      var fs := map["/home/alice/.bashrc" := File("new", 1000, 1000, 0x1A4, true),
                    moved := File("kept", 1000, 1000, 0x1A4, true)];
      var r := BackupAsWritten(Alice(), fs, env, "~alice/.bashrc");
      r.out == Returned(true) && moved in r.fs && r.fs[moved].content != fs[moved].content
  {
    var h := Alice();
    var moved := BackupName("~alice/.bashrc", env.now);
    var fs := map["/home/alice/.bashrc" := File("new", 1000, 1000, 0x1A4, true),
                  moved := File("kept", 1000, 1000, 0x1A4, true)];
    var checked := ExpandUser(h, moved);
    AliceNames(env.now);
    assert !IsLink(fs, checked) && checked !in fs;
    assert Follow(fs, "/home/alice/.bashrc") == Some("/home/alice/.bashrc");
    BackupAsWrittenClobbers(h, fs, env, "~alice/.bashrc");
  }

  lemma AliceNames(now: Stamps.DateTime)
    ensures var moved := BackupName("~alice/.bashrc", now);
      && ExpandUser(Alice(), "~alice/.bashrc") == "/home/alice/.bashrc"
      && ExpandUser(Alice(), moved) != moved
      && ExpandUser(Alice(), moved) != "/home/alice/.bashrc"
      && moved != "/home/alice/.bashrc"
  {
    AliceHome(".bashrc");
    assert "~alice/" + ".bashrc" == "~alice/.bashrc";
    assert "/home/alice/" + ".bashrc" == "/home/alice/.bashrc";
    var moved := BackupName("~alice/.bashrc", now);
    var rest := ".bashrc-" + Stamps.Format(now) + "~";
    assert moved == "~alice/" + rest;
    AliceHome(rest);
    assert moved[0] != "/home/alice/.bashrc"[0];
    assert |"/home/alice/" + rest| != |"/home/alice/.bashrc"|;
  }

  lemma AliceHome(rest: string)
    ensures ExpandUser(Alice(), "~alice/" + rest) == "/home/alice/" + rest
  {
    var h := Alice();
    assert "~alice/" + rest == "~" + "alice" + "/" + rest;
    ExpandUserHome(h, "alice", rest);
    assert "/home/alice" + "/" + rest == "/home/alice/" + rest;
  }

  /**
   * `_edit(scope, path, contents)`: writes `expanduser(path)`, then copies
   * the permission bits of the source of truth onto it; the source path is
   * computed after the write, so a path without `/` raises `IndexError`
   * with the text already written.
   */
  function EditFile(h: Host, fs: FileSystem, env: Env, scope: Scope, path: Path, text: string): (r: Run<()>)
    ensures env.dryrun ==> r == Run(fs, [], Returned(()))
    ensures !env.dryrun && '/' !in path && Follow(fs, ExpandUser(h, path)).Some? ==>
      var q := Follow(fs, ExpandUser(h, path)).value;
      r.out == Raised(IndexError) && q in r.fs && r.fs[q].File? && r.fs[q].content == text
    ensures !env.dryrun && '/' in path && Follow(fs, ExpandUser(h, path)).Some?
            && Exists(fs, SourcePath(env.directory, scope, path).value) ==>
      r.out.Returned? && Follow(r.fs, ExpandUser(h, path)) == Follow(fs, ExpandUser(h, path))
      && var q := Follow(fs, ExpandUser(h, path)).value;
         q in r.fs && r.fs[q].File? && r.fs[q].content == text && r.fs[q].mode == fs[Target(fs, SourcePath(env.directory, scope, path).value)].mode
  {
    var dest := ExpandUser(h, path);
    if env.dryrun then Run(fs, [], Returned(()))
    else match SourcePath(env.directory, scope, path)
      case Ok(source) =>
        var w := WriteFile(h.creds, fs, false, dest, source, text);
        FollowKept(fs, w.fs, dest);
        w
      case Err(e) =>
        match WriteText(fs, h.creds, dest, text)
        case Err(e') => Run(fs, [], Raised(e'))
        case Ok(fs1) =>
          FollowKept(fs, fs1, dest);
          Run(fs1, [], Raised(e))
  }

  // ----- edit ---------------------------------------------------------------

  /**
   * The corrected `edit(path, owner, group, mode, verbatim)`: the backup is
   * copied to the expanded name it checks.  The laws below are about it;
   * `EditAsWritten` is the code as written.
   */
  function Edit(h: Host, fs: FileSystem, env: Env, path: Path, owner: string, group: string, mode: Mode,
                verbatim: bool): (r: Run<Option<bool>>)
    ensures path == "" ==> r == Run(fs, [], Raised(IndexError))
    ensures path != "" && IsLink(fs, ExpandUser(h, ScopeOf(owner, path).value.1)) ==> r == Run(fs, [LinkRefused], Returned(None))
    ensures env.dryrun ==> r.fs == fs
  {
    match ScopeOf(owner, path)
    case Err(e) => Run(fs, [], Raised(e))
    case Ok((scope, scoped)) =>
      EditCore(h, fs, env.dryrun, ExpandUser(h, scoped), Compile(fs, env, scope, scoped, verbatim),
               owner, group, mode, BackupFor(h, scoped, env.now))
  }

  /**
   * `edit` on a differing file that exists is `_backup`, then `_edit`, then
   * the attribute block: the abort on a refused backup, the exceptions of
   * either step, and otherwise the attributes of the written file.
   */
  lemma EditTakesSteps(h: Host, fs: FileSystem, env: Env, path: Path, owner: string, group: string, mode: Mode,
                       verbatim: bool)
    requires path != ""
    requires var s := ScopeOf(owner, path).value;
      var dest := ExpandUser(h, s.1);
      var c := Compile(fs, env, s.0, s.1, verbatim);
      !IsLink(fs, dest) && c.Ok? && Differs(fs, dest, c.value.text) && Exists(fs, dest)
    ensures var s := ScopeOf(owner, path).value;
      var dest := ExpandUser(h, s.1);
      var text := Compile(fs, env, s.0, s.1, verbatim).value.text;
      var b := Backup(h, fs, env, s.1);
      var w := EditFile(h, b.fs, env, s.0, s.1, text);
      var r := Edit(h, fs, env, path, owner, group, mode, verbatim);
      && (b.out.Raised? ==> r == Run(b.fs, b.log, Raised(b.out.error)))
      && (b.out == Returned(false) ==> r == Run(b.fs, b.log, Returned(None)))
      && (b.out == Returned(true) && w.out.Raised? ==> r == Run(w.fs, b.log, Raised(w.out.error)))
      && (b.out == Returned(true) && w.out.Returned? ==> r == Finish(h, w.fs, b.log, env.dryrun, dest, owner, group, mode, true))
  {
  }

  /** `edit` as written, with `_backup` copying to the unexpanded name. */
  function EditAsWritten(h: Host, fs: FileSystem, env: Env, path: Path, owner: string, group: string, mode: Mode,
                         verbatim: bool): (r: Run<Option<bool>>)
    ensures path == "" ==> r == Run(fs, [], Raised(IndexError))
    ensures path != "" && path[0] != '~' ==> r == Edit(h, fs, env, path, owner, group, mode, verbatim)
  {
    match ScopeOf(owner, path)
    case Err(e) => Run(fs, [], Raised(e))
    case Ok((scope, scoped)) =>
      assert scope == SystemWide ==> BackupForAsWritten(h, scoped, env.now) == BackupFor(h, scoped, env.now) by {
        if scope == SystemWide { BackupNamesAgreeOffHome(h, scoped, env.now); }
      }
      EditCore(h, fs, env.dryrun, ExpandUser(h, scoped), Compile(fs, env, scope, scoped, verbatim),
               owner, group, mode, BackupForAsWritten(h, scoped, env.now))
  }

  /**
   * A real corrected `edit` of `~/rest` that completes leaves the owner's
   * `~/rest` holding the source of truth `files/user/rest` (verbatim),
   * owned and moded as asked.
   */
  lemma EditUserFile(h: Host, fs: FileSystem, env: Env, rest: string, owner: string, group: string, mode: Mode)
    requires owner in h.users && owner != "" && '/' !in owner
    requires h.users[owner].dir != "" && h.users[owner].dir[|h.users[owner].dir| - 1] != '/'
    requires !env.dryrun
    requires var r := Edit(h, fs, env, "~/" + rest, owner, group, mode, true); r.out.Returned? && r.out.value.Some?
    ensures var r := Edit(h, fs, env, "~/" + rest, owner, group, mode, true);
      var home := h.users[owner].dir + "/" + rest;
      && group in h.groups
      && ReadText(fs, env.directory + "/files/user/" + rest).Ok?
      && home in r.fs
      && r.fs[home] == File(ReadText(fs, env.directory + "/files/user/" + rest).value, h.users[owner].uid, h.groups[group], mode, true)
  {
    var scoped := "~" + owner + "/" + rest;
    var home := h.users[owner].dir + "/" + rest;
    var t := BackupFor(h, scoped, env.now);
    var compiled := Compile(fs, env, UserWide, scoped, true);
    EditOfUserFile(h, fs, env, rest, owner, group, mode);
    var r := Edit(h, fs, env, "~/" + rest, owner, group, mode, true);
    assert r == EditCore(h, fs, false, home, compiled, owner, group, mode, t);
    assert compiled.Ok?;
    EditConverges(h, fs, home, compiled.value, owner, group, mode, t);
  }

  /** The corrected `edit('~/rest', owner, ...)` is the engine run on the owner's file with `files/user/rest` compiled verbatim. */
  lemma EditOfUserFile(h: Host, fs: FileSystem, env: Env, rest: string, owner: string, group: string, mode: Mode)
    requires owner in h.users && owner != "" && '/' !in owner
    requires h.users[owner].dir != "" && h.users[owner].dir[|h.users[owner].dir| - 1] != '/'
    ensures var scoped := "~" + owner + "/" + rest;
      var home := h.users[owner].dir + "/" + rest;
      var c := Compile(fs, env, UserWide, scoped, true);
      && (c.Ok? ==> ReadText(fs, env.directory + "/files/user/" + rest).Ok?
                    && c.value == Compiled(env.directory + "/files/user/" + rest, ReadText(fs, env.directory + "/files/user/" + rest).value))
      && Edit(h, fs, env, "~/" + rest, owner, group, mode, true)
         == EditCore(h, fs, env.dryrun, home, c, owner, group, mode, BackupFor(h, scoped, env.now))
  {
    UserFileMirrorsSource(h, env.directory, owner, rest);
  }

  /**
   * A `~`-free path edited once for real by the corrected `edit`, whose
   * source of truth is not the file itself, is settled: editing it again (at any later time, real or
   * dry) changes nothing and returns false.
   */
  lemma EditIdempotent(h: Host, fs: FileSystem, env: Env, path: Path, owner: string, group: string, mode: Mode,
                       verbatim: bool, env2: Env)
    requires !env.dryrun && env2.directory == env.directory && env2.render == env.render
    requires path != "" && path[0] != '~'
    requires SourcePath(env.directory, SystemWide, path).Ok? ==>
      Follow(fs, SourcePath(env.directory, SystemWide, path).value) != Some(path)
    requires var r := Edit(h, fs, env, path, owner, group, mode, verbatim); r.out.Returned? && r.out.value.Some?
    ensures var fs1 := Edit(h, fs, env, path, owner, group, mode, verbatim).fs;
      Edit(h, fs1, env2, path, owner, group, mode, verbatim) == Run(fs1, [], Returned(Some(false)))
  {
    var t := BackupFor(h, path, env.now);
    var c := Compile(fs, env, SystemWide, path, verbatim);
    assert Edit(h, fs, env, path, owner, group, mode, verbatim) == EditCore(h, fs, false, path, c, owner, group, mode, t);
    var fs1 := EditCore(h, fs, false, path, c, owner, group, mode, t).fs;
    assert c.Ok?;
    var src := c.value.source;
    EditLaws.EditKeepsOtherFiles(h, fs, false, path, c, owner, group, mode, t);
    FollowKept(fs, fs1, src);
    var k := Target(fs, src);
    assert k != path;
    assert fs1[k] == fs[k];
    assert ReadText(fs1, src) == ReadText(fs, src);
    assert Compile(fs1, env2, SystemWide, path, verbatim) == c;
    EditLaws.EditIdempotent(h, fs, path, c.value, owner, group, mode, t, env2.dryrun, BackupFor(h, path, env2.now));
  }

  /**
   * The same for the user scope: once a real corrected
   * `edit('~/rest', owner, ...)` completes, and `files/user/rest` is not the owner's file itself,
   * editing it again changes nothing and returns false.
   */
  lemma EditUserIdempotent(h: Host, fs: FileSystem, env: Env, rest: string, owner: string, group: string, mode: Mode,
                           verbatim: bool, env2: Env)
    requires owner in h.users && owner != "" && '/' !in owner
    requires h.users[owner].dir != "" && h.users[owner].dir[|h.users[owner].dir| - 1] != '/'
    requires !env.dryrun && env2.directory == env.directory && env2.render == env.render
    requires Follow(fs, env.directory + "/files/user/" + rest) != Some(h.users[owner].dir + "/" + rest)
    requires var r := Edit(h, fs, env, "~/" + rest, owner, group, mode, verbatim); r.out.Returned? && r.out.value.Some?
    ensures var fs1 := Edit(h, fs, env, "~/" + rest, owner, group, mode, verbatim).fs;
      Edit(h, fs1, env2, "~/" + rest, owner, group, mode, verbatim) == Run(fs1, [], Returned(Some(false)))
  {
    var scoped := "~" + owner + "/" + rest;
    var home := h.users[owner].dir + "/" + rest;
    var src := env.directory + "/files/user/" + rest;
    UserFileMirrorsSource(h, env.directory, owner, rest);
    var t := BackupFor(h, scoped, env.now);
    var c := Compile(fs, env, UserWide, scoped, verbatim);
    assert Edit(h, fs, env, "~/" + rest, owner, group, mode, verbatim) == EditCore(h, fs, false, home, c, owner, group, mode, t);
    var fs1 := EditCore(h, fs, false, home, c, owner, group, mode, t).fs;
    assert c.Ok? && c.value.source == src;
    EditLaws.EditKeepsOtherFiles(h, fs, false, home, c, owner, group, mode, t);
    FollowKept(fs, fs1, src);
    var k := Target(fs, src);
    assert k != home;
    assert fs1[k] == fs[k];
    assert ReadText(fs1, src) == ReadText(fs, src);
    assert Compile(fs1, env2, UserWide, scoped, verbatim) == c;
    var t2 := BackupFor(h, scoped, env2.now);
    assert Edit(h, fs1, env2, "~/" + rest, owner, group, mode, verbatim) == EditCore(h, fs1, env2.dryrun, home, c, owner, group, mode, t2);
    EditLaws.EditIdempotent(h, fs, home, c.value, owner, group, mode, t, env2.dryrun, t2);
  }

  /**
   * `edit('~/rest', owner, ...)` as written is idempotent too, provided the
   * literal backup name, which the as-written `_backup` copies to, does not
   * lead to the source of truth: otherwise the backup overwrites
   * `files/user/rest` with the old text, and the next run differs again.
   */
  lemma EditAsWrittenUserIdempotent(h: Host, fs: FileSystem, env: Env, rest: string, owner: string, group: string,
                                    mode: Mode, verbatim: bool, env2: Env)
    requires owner in h.users && owner != "" && '/' !in owner
    requires h.users[owner].dir != "" && h.users[owner].dir[|h.users[owner].dir| - 1] != '/'
    requires !env.dryrun && env2.directory == env.directory && env2.render == env.render
    requires Follow(fs, env.directory + "/files/user/" + rest) != Some(h.users[owner].dir + "/" + rest)
    requires Follow(fs, BackupName("~" + owner + "/" + rest, env.now)) != Follow(fs, env.directory + "/files/user/" + rest)
    requires var r := EditAsWritten(h, fs, env, "~/" + rest, owner, group, mode, verbatim); r.out.Returned? && r.out.value.Some?
    ensures var fs1 := EditAsWritten(h, fs, env, "~/" + rest, owner, group, mode, verbatim).fs;
      EditAsWritten(h, fs1, env2, "~/" + rest, owner, group, mode, verbatim) == Run(fs1, [], Returned(Some(false)))
  {
    var scoped := "~" + owner + "/" + rest;
    var home := h.users[owner].dir + "/" + rest;
    var src := env.directory + "/files/user/" + rest;
    UserFileMirrorsSource(h, env.directory, owner, rest);
    var t := BackupForAsWritten(h, scoped, env.now);
    var c := Compile(fs, env, UserWide, scoped, verbatim);
    assert EditAsWritten(h, fs, env, "~/" + rest, owner, group, mode, verbatim) == EditCore(h, fs, false, home, c, owner, group, mode, t);
    var fs1 := EditCore(h, fs, false, home, c, owner, group, mode, t).fs;
    assert c.Ok? && c.value.source == src;
    EditLaws.EditKeepsOutsideBackup(h, fs, false, home, c, owner, group, mode, t);
    FollowKept(fs, fs1, src);
    var k := Target(fs, src);
    assert k != home;
    assert k !in Slot(fs, t.write);
    assert fs1[k] == fs[k];
    assert ReadText(fs1, src) == ReadText(fs, src);
    assert Compile(fs1, env2, UserWide, scoped, verbatim) == c;
    var t2 := BackupForAsWritten(h, scoped, env2.now);
    assert EditAsWritten(h, fs1, env2, "~/" + rest, owner, group, mode, verbatim) == EditCore(h, fs1, env2.dryrun, home, c, owner, group, mode, t2);
    EditLaws.EditIdempotent(h, fs, home, c.value, owner, group, mode, t, env2.dryrun, t2);
  }

  // ----- visudo -------------------------------------------------------------

  /** `'%s/%s' % (SUDOERSD, filename)`. */
  function SudoersPath(filename: string): (path: Path)
    ensures |path| == |SUDOERSD| + 1 + |filename| && path[0] == '/'
    ensures path[..|SUDOERSD| + 1] == SUDOERSD + "/" && path[|SUDOERSD| + 1..] == filename
  {
    SUDOERSD + "/" + filename
  }

  /** `visudo(filename, verbatim)`, logging "busy" when the lockfile is held (`exc.errno == errno.EEXIST`). */
  function Visudo(h: Host, fs: FileSystem, env: Env, filename: string, verbatim: bool): (r: Run<Option<bool>>)
    ensures env.dryrun ==> r.fs == fs
    ensures Compile(fs, env, SystemWide, SudoersPath(filename), verbatim).Err? ==>
      r == Run(fs, [], Raised(Compile(fs, env, SystemWide, SudoersPath(filename), verbatim).error))
    ensures var path := SudoersPath(filename);
      var c := Compile(fs, env, SystemWide, path, verbatim);
      c.Ok? && Differs(fs, path, c.value.text) && env.check(c.value.text).None? ==> r.log == []
    ensures r.out == Returned(None) ==> r.log == [BackupExists]
  {
    var path := SudoersPath(filename);
    VisudoCore(h, fs, env.dryrun, path, Compile(fs, env, SystemWide, path, verbatim), env.check,
               BackupFor(h, path, env.now), path + ".tmp", OnlyEexist)
  }

  /** `visudo` as written: `exc == errno.EEXIST` compares the exception object itself with an int. */
  function VisudoAsWritten(h: Host, fs: FileSystem, env: Env, filename: string, verbatim: bool): (r: Run<Option<bool>>)
    ensures env.dryrun ==> r.fs == fs
    ensures Busy !in r.log
  {
    var path := SudoersPath(filename);
    VisudoCore(h, fs, env.dryrun, path, Compile(fs, env, SystemWide, path, verbatim), env.check,
               BackupForAsWritten(h, path, env.now), path + ".tmp", NeverLogged)
  }

  /**
   * With the text differing, the checker accepting it, the lockfile held
   * and any backup going through, the corrected `visudo` logs "busy"; as
   * written it logs nothing, for every run, and aborts silently.
   */
  lemma VisudoReportsBusy(h: Host, fs: FileSystem, env: Env, filename: string, verbatim: bool)
    requires var path := SudoersPath(filename);
      var c := Compile(fs, env, SystemWide, path, verbatim);
      && c.Ok? && Differs(fs, path, c.value.text) && env.check(c.value.text) == Some(0)
      && path + ".tmp" in fs
      && (!Exists(fs, path) || Engine.Backup(h.creds, fs, env.dryrun, path, BackupFor(h, path, env.now)).out == Returned(true))
    ensures Visudo(h, fs, env, filename, verbatim).log == [Busy]
    ensures VisudoAsWritten(h, fs, env, filename, verbatim).log == []
  {
    var path := SudoersPath(filename);
    var c := Compile(fs, env, SystemWide, path, verbatim).value;
    BackupNamesAgreeOffHome(h, path, env.now);
    SudoersLaws.VisudoLog(h, fs, env.dryrun, path, c, env.check, BackupFor(h, path, env.now), path + ".tmp", OnlyEexist);
    SudoersLaws.VisudoLog(h, fs, env.dryrun, path, c, env.check, BackupFor(h, path, env.now), path + ".tmp", NeverLogged);
  }

  /**
   * The lockfile `<path>.tmp` does not outlive a `visudo` that returns,
   * unless the backup name is itself a symbolic link.
   */
  lemma VisudoReleasesLock(h: Host, fs: FileSystem, env: Env, filename: string, verbatim: bool)
    requires !IsLink(fs, BackupName(SudoersPath(filename), env.now))
    requires Visudo(h, fs, env, filename, verbatim).out.Returned?
    ensures var lock := SudoersPath(filename) + ".tmp";
      lock in Visudo(h, fs, env, filename, verbatim).fs <==> lock in fs
  {
    var path := SudoersPath(filename);
    var moved := BackupName(path, env.now);
    var lock := path + ".tmp";
    var t := BackupFor(h, path, env.now);
    assert moved[0] == '/';
    assert t.write == moved;
    assert moved != lock by { assert moved[|path|] != lock[|path|]; }
    var c := Compile(fs, env, SystemWide, path, verbatim);
    assert c.Ok?;
    SudoersLaws.VisudoReleasesLock(h, fs, env.dryrun, path, c.value, env.check, t, lock, OnlyEexist);
  }
}

=== FILE: stamps.dfy ===
/**
 * The timestamp in a backup name: `datetime.now().strftime('%Y%m%d_%H%M%S')`.
 * The clock is an input; a `DateTime` holds what `datetime.now()` can return
 * and Python 2's `strftime` accepts (years from 1900 on).
 */
module Stamps {
  import opened Base

  type Year = y: int | 1900 <= y <= 9999 witness 1900
  type Month = m: int | 1 <= m <= 12 witness 1
  type Day = d: int | 1 <= d <= 31 witness 1
  type Hour = h: int | 0 <= h < 24
  type Minute = m: int | 0 <= m < 60
  type Second = s: int | 0 <= s < 60

  datatype DateTime = DateTime(year: Year, month: Month, day: Day, hour: Hour, minute: Minute, second: Second)

  function Pow10(n: nat): (p: nat)
    ensures p > 0
  {
    if n == 0 then 1 else 10 * Pow10(n - 1)
  }

  predicate IsDigit(c: char)
  {
    '0' <= c <= '9'
  }

  predicate AllDigits(s: string)
  {
    forall i :: 0 <= i < |s| ==> IsDigit(s[i])
  }

  /** `n` written in decimal, zero-padded to exactly `width` digits. */
  function Digits(n: nat, width: nat): (s: string)
    requires n < Pow10(width)
    ensures |s| == width
    ensures AllDigits(s)
  {
    if width == 0 then ""
    else Digits(n / 10, width - 1) + [('0' as int + n % 10) as char]
  }

  /** The number a string of decimal digits denotes. */
  function Value(s: string): nat
    requires AllDigits(s)
  {
    if |s| == 0 then 0
    else 10 * Value(s[..|s| - 1]) + (s[|s| - 1] as int - '0' as int)
  }

  lemma {:induction false} ValueOfDigits(n: nat, width: nat)
    requires n < Pow10(width)
    ensures Value(Digits(n, width)) == n
  {
    if width > 0 {
      var s := Digits(n, width);
      assert s[..|s| - 1] == Digits(n / 10, width - 1);
      ValueOfDigits(n / 10, width - 1);
    }
  }

  /** `%Y%m%d_%H%M%S`. */
  function Format(t: DateTime): (s: string)
    ensures |s| == 15 && s[8] == '_'
  {
    Digits(t.year, 4) + Digits(t.month, 2) + Digits(t.day, 2) + "_"
      + Digits(t.hour, 2) + Digits(t.minute, 2) + Digits(t.second, 2)
  }

  /** Reads a `%Y%m%d_%H%M%S` stamp back, if it is one. */
  function Parse(s: string): Option<DateTime>
  {
    if |s| != 15 || s[8] != '_' then None
    else ParseFields(s[..8], s[9..])
  }

  /** Reads the `%Y%m%d` and `%H%M%S` halves of a stamp. */
  function ParseFields(date: string, clock: string): Option<DateTime>
    requires |date| == 8 && |clock| == 6
  {
    if !AllDigits(date) || !AllDigits(clock) then None
    else
      var year, month, day := Value(date[..4]), Value(date[4..6]), Value(date[6..]);
      var hour, minute, second := Value(clock[..2]), Value(clock[2..4]), Value(clock[4..]);
      if 1900 <= year <= 9999 && 1 <= month <= 12 && 1 <= day <= 31 && hour < 24 && minute < 60 && second < 60
      then Some(DateTime(year, month, day, hour, minute, second))
      else None
  }

  /** The three pieces of a concatenation are its slices at the pieces' lengths. */
  lemma SlicesOfThree(a: string, b: string, c: string)
    ensures var s := a + b + c;
      s[..|a|] == a && s[|a|..|a| + |b|] == b && s[|a| + |b|..] == c
  {
  }

  /** The halves either side of the `_` are the slices either side of it. */
  lemma SlicesAroundMark(date: string, clock: string)
    ensures var s := date + "_" + clock;
      s[|date|] == '_' && s[..|date|] == date && s[|date| + 1..] == clock
  {
  }

  /** Reading back the fields of a formatted moment gives the moment. */
  lemma ParseFieldsOfDigits(t: DateTime)
    ensures ParseFields(Digits(t.year, 4) + Digits(t.month, 2) + Digits(t.day, 2),
                        Digits(t.hour, 2) + Digits(t.minute, 2) + Digits(t.second, 2)) == Some(t)
  {
    SlicesOfThree(Digits(t.year, 4), Digits(t.month, 2), Digits(t.day, 2));
    SlicesOfThree(Digits(t.hour, 2), Digits(t.minute, 2), Digits(t.second, 2));
    ValueOfDigits(t.year, 4);
    ValueOfDigits(t.month, 2);
    ValueOfDigits(t.day, 2);
    ValueOfDigits(t.hour, 2);
    ValueOfDigits(t.minute, 2);
    ValueOfDigits(t.second, 2);
  }

  /** Parsing a formatted stamp gives the time back. */
  lemma ParseFormat(t: DateTime)
    ensures Parse(Format(t)) == Some(t)
  {
    var date := Digits(t.year, 4) + Digits(t.month, 2) + Digits(t.day, 2);
    var clock := Digits(t.hour, 2) + Digits(t.minute, 2) + Digits(t.second, 2);
    assert Format(t) == date + "_" + clock;
    SlicesAroundMark(date, clock);
    ParseFieldsOfDigits(t);
  }

  /** Two different seconds never format to the same stamp. */
  lemma FormatInjective(t1: DateTime, t2: DateTime)
    ensures Format(t1) == Format(t2) ==> t1 == t2
  {
    ParseFormat(t1);
    ParseFormat(t2);
  }
}

=== FILE: sudoers.dfy ===
/**
 * The `visudo` transaction both revisions share: on a difference, run the
 * sudoers syntax checker, back the file up, take an exclusive lockfile,
 * write, drop the lockfile; then force `root:root` and mode 0o440 whatever
 * happened.  Errors are handled as the source's `try` block does: an
 * `OSError` is caught (and maybe logged as "busy"), anything else escapes.
 */
module Sudoers {
  import opened Base
  import opened Modes
  import opened Fs
  import opened Accounts
  import opened Engine

  const SUDOERSD: Path := "/etc/sudoers.d"

  /** The checker `visudo -c -f -` that is spawned. */
  const VISUDO: Path := "/usr/sbin/visudo"

  /** Which caught `OSError`s the `except` clause logs as "busy". */
  datatype BusyPolicy =
    | NeverLogged   // `if exc == errno.EEXIST`: an exception object is never equal to an int
    | OnlyEexist    // `if exc.errno == errno.EEXIST`
    | AnyOSError    // a bare `except OSError:` that always logs

  predicate LogsBusy(policy: BusyPolicy, e: Error)
  {
    match policy
    case NeverLogged => false
    case OnlyEexist => e.OSError? && e.errno == EEXIST
    case AnyOSError => true
  }

  /** The `except OSError` clause: an `OSError` ends the block with `change` still false. */
  function Catch(fs: FileSystem, log: seq<Warning>, e: Error, policy: BusyPolicy): (r: Run<Option<bool>>)
    ensures r.fs == fs
    ensures e.OSError? ==> r.out == Returned(Some(false)) && r.log == log + (if LogsBusy(policy, e) then [Busy] else [])
    ensures !e.OSError? ==> r == Run(fs, log, Raised(e))
  {
    if e.OSError? then Run(fs, log + (if LogsBusy(policy, e) then [Busy] else []), Returned(Some(false)))
    else Run(fs, log, Raised(e))
  }

  /**
   * Create the lockfile `lock` with `O_CREAT | O_EXCL`, `_edit` the sudoers
   * file, remove the lockfile, `change = True`.  The lockfile calls are
   * not guarded by the dry-run flag.
   */
  function Locked(cr: Creds, fs: FileSystem, log: seq<Warning>, dryrun: bool, dest: Path, c: Compiled,
                  lock: Path, policy: BusyPolicy): (r: Run<Option<bool>>)
    ensures lock in fs ==> r == Catch(fs, log, OSError(lock, EEXIST), policy)
    ensures dryrun ==> r.fs == fs
    ensures r.out.Returned? ==> r.out.value.Some?
    ensures LinksKept(fs, r.fs)
    ensures fs.Keys <= r.fs.Keys
    ensures r.log == log || (policy != NeverLogged && r.log == log + [Busy])
  {
    match CreateExclusive(fs, cr, lock)
    case Err(e) => Catch(fs, log, e, policy)
    case Ok(fs1) =>
      var w := WriteFile(cr, fs1, dryrun, dest, c.source, c.text);
      match w.out
      case Raised(e) =>
        LinksKeptTrans(fs, fs1, w.fs);
        Catch(w.fs, log, e, policy)
      case Returned(_) =>
        match Remove(w.fs, lock)
        case Err(e) =>
          LinksKeptTrans(fs, fs1, w.fs);
          Catch(w.fs, log, e, policy)
        case Ok(fs2) =>
          assert !IsLink(w.fs, lock);
          LinksKeptTrans(fs, fs1, w.fs);
          LinksKeptTrans(fs, w.fs, fs2);
          if dryrun then
            AddThenRemove(fs, lock, fs1[lock]);
            Run(fs2, log, Returned(Some(true)))
          else Run(fs2, log, Returned(Some(true)))
  }

  /**
   * The body of `if diff:` up to the attribute block.  `exit` is the
   * checker's exit status, `None` when it could not be spawned.
   * `Returned(None)` is the early `return` after a refused backup;
   * `Returned(Some(w))` continues with `change == w`.
   */
  function Transaction(h: Host, fs: FileSystem, dryrun: bool, dest: Path, c: Compiled, exit: Option<int>,
                       t: BackupTarget, lock: Path, policy: BusyPolicy): (r: Run<Option<bool>>)
    ensures exit.None? ==> r == Catch(fs, [], OSError(VISUDO, ENOENT), policy)
    ensures exit.Some? && exit.value != 0 ==> r == Run(fs, [SyntaxRejected], Returned(Some(false)))
    ensures dryrun ==> r.fs == fs
    ensures LinksKept(fs, r.fs)
    ensures fs.Keys <= r.fs.Keys
    ensures Busy in r.log ==> policy != NeverLogged
    ensures r.out == Returned(None) ==> r.log == [BackupExists]
  {
    match exit
    case None => Catch(fs, [], OSError(VISUDO, ENOENT), policy)
    case Some(code) =>
      if code != 0 then Run(fs, [SyntaxRejected], Returned(Some(false)))
      else if !Exists(fs, dest) then Locked(h.creds, fs, [], dryrun, dest, c, lock, policy)
      else
        var b := Backup(h.creds, fs, dryrun, dest, t);
        match b.out
        case Raised(e) => Catch(b.fs, b.log, e, policy)
        case Returned(ok) =>
          if ok then Locked(h.creds, b.fs, b.log, dryrun, dest, c, lock, policy)
          else Run(b.fs, b.log, Returned(None))
  }

  /**
   * Whether the sudoers file gets written: the text differs, the checker
   * accepted it, no lockfile is in the way, and no backup stands in the way
   * (there is no file to back up, or the backup name is free).
   */
  predicate WriteAllowed(fs: FileSystem, dest: Path, c: Compiled, exit: Option<int>, t: BackupTarget, lock: Path)
  {
    && Differs(fs, dest, c.text)
    && exit == Some(0)
    && lock !in fs
    && (!Exists(fs, dest) || !Exists(fs, t.check))
  }

  /** The `if diff:` block: the transaction when `_diff` is truthy, else nothing. */
  function Attempt(h: Host, fs: FileSystem, dryrun: bool, dest: Path, c: Compiled, check: string -> Option<int>,
                   t: BackupTarget, lock: Path, policy: BusyPolicy): (r: Run<Option<bool>>)
    ensures !Differs(fs, dest, c.text) ==> r == Run(fs, [], Returned(Some(false)))
    ensures dryrun ==> r.fs == fs
    ensures LinksKept(fs, r.fs)
    ensures fs.Keys <= r.fs.Keys
    ensures Busy in r.log ==> policy != NeverLogged
    ensures r.out == Returned(None) ==> r.log == [BackupExists]
  {
    if Differs(fs, dest, c.text) then Transaction(h, fs, dryrun, dest, c, check(c.text), t, lock, policy)
    else Run(fs, [], Returned(Some(false)))
  }

  /**
   * `visudo` once the sudoers path `dest`, its compiled contents, the
   * checker, the backup names and the lockfile path are known.
   */
  function VisudoCore(h: Host, fs: FileSystem, dryrun: bool, dest: Path, compiled: Result<Compiled>,
                      check: string -> Option<int>, t: BackupTarget, lock: Path, policy: BusyPolicy): (r: Run<Option<bool>>)
    ensures compiled.Err? ==> r == Run(fs, [], Raised(compiled.error))
    ensures dryrun ==> r.fs == fs
    ensures LinksKept(fs, r.fs)
    ensures Busy in r.log ==> policy != NeverLogged
    ensures r.out == Returned(None) ==> r.log == [BackupExists]
  {
    match compiled
    case Err(e) => Run(fs, [], Raised(e))
    case Ok(c) =>
      var tx := Attempt(h, fs, dryrun, dest, c, check, t, lock, policy);
      match tx.out
      case Raised(_) => tx
      case Returned(None) => tx
      case Returned(Some(wrote)) => Finish(h, tx.fs, tx.log, dryrun, dest, "root", "root", SudoersMode, wrote)
  }
}

=== FILE: sudoers_laws.dfy ===
/**
 * What a `visudo` run guarantees: the sudoers file ends up `root:root`
 * 0o440, it is written only when the checker accepted the text and nothing
 * is in the way, the lockfile does not outlive the run, the warnings
 * logged, and that a converged file is left alone.
 */
module SudoersLaws {
  import opened Base
  import opened Modes
  import opened Fs
  import opened Accounts
  import opened Engine
  import opened Sudoers

  /**
   * After a real `visudo` that reaches the attribute block, an existing
   * sudoers file is owned by root's uid and gid with mode 0o440, whatever
   * happened to its text.
   */
  lemma VisudoForcesRoot(h: Host, fs: FileSystem, dest: Path, c: Compiled, check: string -> Option<int>,
                         t: BackupTarget, lock: Path, policy: BusyPolicy)
    requires var r := VisudoCore(h, fs, false, dest, Ok(c), check, t, lock, policy);
      r.out.Returned? && r.out.value.Some? && Exists(r.fs, dest)
    ensures Resolvable(h, "root", "root")
    ensures var r := VisudoCore(h, fs, false, dest, Ok(c), check, t, lock, policy);
      StatOf(r.fs, dest) == Ok(Stat(h.users["root"].uid, h.groups["root"], SudoersMode))
  {
    var r := VisudoCore(h, fs, false, dest, Ok(c), check, t, lock, policy);
    var tx := Attempt(h, fs, false, dest, c, check, t, lock, policy);
    assert r == Finish(h, tx.fs, tx.log, false, dest, "root", "root", SudoersMode, tx.out.value.value);
    assert Exists(tx.fs, dest);
    var q := Target(tx.fs, dest);
    FollowAfterFileUpdate(tx.fs, q, r.fs[q], dest);
  }

  /** A file that is not written keeps its text: only its attributes move. */
  lemma VisudoGate(h: Host, fs: FileSystem, dryrun: bool, dest: Path, c: Compiled, check: string -> Option<int>,
                   t: BackupTarget, lock: Path, policy: BusyPolicy)
    requires !WriteAllowed(fs, dest, c, check(c.text), t, lock)
    ensures ReadText(VisudoCore(h, fs, dryrun, dest, Ok(c), check, t, lock, policy).fs, dest) == ReadText(fs, dest)
  {
    var r := VisudoCore(h, fs, dryrun, dest, Ok(c), check, t, lock, policy);
    var tx := Attempt(h, fs, dryrun, dest, c, check, t, lock, policy);
    AttemptKeepsTextUnlessAllowed(h, fs, dryrun, dest, c, check, t, lock, policy);
    if tx.out.Returned? && tx.out.value.Some? {
      FinishKeepsText(h, tx.fs, tx.log, dryrun, dest, tx.out.value.value);
    }
  }

  /** The attribute block never changes what reading the file yields. */
  lemma FinishKeepsText(h: Host, fs: FileSystem, log: seq<Warning>, dryrun: bool, dest: Path, wrote: bool)
    ensures ReadText(Finish(h, fs, log, dryrun, dest, "root", "root", SudoersMode, wrote).fs, dest) == ReadText(fs, dest)
  {
    var r := Finish(h, fs, log, dryrun, dest, "root", "root", SudoersMode, wrote);
    if Exists(fs, dest) && Resolvable(h, "root", "root") && !dryrun {
      var q := Target(fs, dest);
      FollowAfterFileUpdate(fs, q, r.fs[q], dest);
    }
  }

  lemma AttemptKeepsTextUnlessAllowed(h: Host, fs: FileSystem, dryrun: bool, dest: Path, c: Compiled,
                                      check: string -> Option<int>, t: BackupTarget, lock: Path, policy: BusyPolicy)
    requires !WriteAllowed(fs, dest, c, check(c.text), t, lock)
    ensures ReadText(Attempt(h, fs, dryrun, dest, c, check, t, lock, policy).fs, dest) == ReadText(fs, dest)
  {
    if Differs(fs, dest, c.text) && check(c.text) == Some(0) && Exists(fs, dest) && !Exists(fs, t.check) && !dryrun {
      var b := Backup(h.creds, fs, dryrun, dest, t);
      FollowKept(fs, b.fs, dest);
      if Follow(fs, t.write) != Follow(fs, dest) {
        assert Target(fs, dest) !in Slot(fs, t.write);
      }
      assert lock in b.fs;
    }
  }

  /**
   * The warnings `visudo` logs once the text differs: "busy" when the
   * checker cannot be spawned only if every `OSError` is logged; the
   * checker's complaint when it rejects the text; and, when the lockfile
   * is held and any backup went through, "busy" unless the policy never
   * logs.
   */
  lemma VisudoLog(h: Host, fs: FileSystem, dryrun: bool, dest: Path, c: Compiled, check: string -> Option<int>,
                  t: BackupTarget, lock: Path, policy: BusyPolicy)
    requires Differs(fs, dest, c.text)
    ensures var r := VisudoCore(h, fs, dryrun, dest, Ok(c), check, t, lock, policy);
      && (check(c.text).None? ==> r.log == (if policy == AnyOSError then [Busy] else []))
      && (check(c.text).Some? && check(c.text).value != 0 ==> r.log == [SyntaxRejected])
      && (check(c.text) == Some(0) && lock in fs
          && (!Exists(fs, dest) || Backup(h.creds, fs, dryrun, dest, t).out == Returned(true)) ==>
            r.log == (if policy == NeverLogged then [] else [Busy]))
  {
    if check(c.text) == Some(0) && lock in fs && Exists(fs, dest) && Backup(h.creds, fs, dryrun, dest, t).out == Returned(true) {
      var b := Backup(h.creds, fs, dryrun, dest, t);
      assert lock in b.fs;
    }
  }

  /**
   * Idempotence: once a real `visudo` has left the desired text in the
   * sudoers file, running it again (real or dry, with any checker, backup
   * names, lockfile or logging policy) changes nothing and returns false.
   */
  lemma VisudoIdempotent(h: Host, fs: FileSystem, dest: Path, c: Compiled, check: string -> Option<int>,
                         t: BackupTarget, lock: Path, policy: BusyPolicy,
                         dryrun2: bool, check2: string -> Option<int>, t2: BackupTarget, lock2: Path, policy2: BusyPolicy)
    requires var r := VisudoCore(h, fs, false, dest, Ok(c), check, t, lock, policy);
      r.out.Returned? && r.out.value.Some? && ReadText(r.fs, dest) == Ok(c.text)
    ensures var fs1 := VisudoCore(h, fs, false, dest, Ok(c), check, t, lock, policy).fs;
      VisudoCore(h, fs1, dryrun2, dest, Ok(c), check2, t2, lock2, policy2) == Run(fs1, [], Returned(Some(false)))
  {
    var fs1 := VisudoCore(h, fs, false, dest, Ok(c), check, t, lock, policy).fs;
    VisudoForcesRoot(h, fs, dest, c, check, t, lock, policy);
    DiffersIff(fs1, dest, c.text);
    var q := Target(fs1, dest);
    assert fs1[q := fs1[q].(uid := h.users["root"].uid, gid := h.groups["root"], mode := SudoersMode)] == fs1;
  }

  /**
   * When the write is allowed, the source-of-truth file exists, and neither
   * the sudoers path nor the backup name leads to the lockfile, a real run
   * that returns has written the desired text and reports a change.
   */
  lemma VisudoWrites(h: Host, fs: FileSystem, dest: Path, c: Compiled, check: string -> Option<int>,
                     t: BackupTarget, lock: Path, policy: BusyPolicy)
    requires WriteAllowed(fs, dest, c, check(c.text), t, lock)
    requires Exists(fs, c.source)
    requires Follow(fs, dest) != Some(lock) && Follow(fs, t.write) != Some(lock)
    requires VisudoCore(h, fs, false, dest, Ok(c), check, t, lock, policy).out.Returned?
    ensures var r := VisudoCore(h, fs, false, dest, Ok(c), check, t, lock, policy);
      r.out == Returned(Some(true)) && ReadText(r.fs, dest) == Ok(c.text)
  {
    var tx := Attempt(h, fs, false, dest, c, check, t, lock, policy);
    TransactionWrites(h, fs, dest, c, t, lock, policy);
    FinishKeepsText(h, tx.fs, tx.log, false, dest, true);
  }

  lemma TransactionWrites(h: Host, fs: FileSystem, dest: Path, c: Compiled, t: BackupTarget, lock: Path, policy: BusyPolicy)
    requires WriteAllowed(fs, dest, c, Some(0), t, lock)
    requires Exists(fs, c.source)
    requires Follow(fs, dest) != Some(lock) && Follow(fs, t.write) != Some(lock)
    ensures var tx := Transaction(h, fs, false, dest, c, Some(0), t, lock, policy);
      tx.out.Raised? || (tx.out == Returned(Some(true)) && ReadText(tx.fs, dest) == Ok(c.text))
  {
    var tx := Transaction(h, fs, false, dest, c, Some(0), t, lock, policy);
    if !Exists(fs, dest) {
      LockedWrites(h.creds, fs, [], dest, c, lock, policy);
    } else {
      var b := Backup(h.creds, fs, false, dest, t);
      if b.out == Returned(true) {
        assert lock !in b.fs;
        FollowKept(fs, b.fs, dest);
        ExistsKept(fs, b.fs, c.source);
        var q := Target(fs, dest);
        assert q !in Slot(fs, t.write);
        assert b.fs[q] == fs[q];
        LockedWrites(h.creds, b.fs, b.log, dest, c, lock, policy);
      }
    }
  }

  lemma LockedWrites(cr: Creds, fs: FileSystem, log: seq<Warning>, dest: Path, c: Compiled, lock: Path, policy: BusyPolicy)
    requires lock !in fs
    requires Exists(fs, c.source)
    requires Follow(fs, dest) != Some(lock)
    requires Exists(fs, dest) ==> fs[Target(fs, dest)].readable
    ensures var r := Locked(cr, fs, log, false, dest, c, lock, policy);
      r.out.Raised? || (r.out == Returned(Some(true)) && ReadText(r.fs, dest) == Ok(c.text))
  {
    var fs1 := CreateExclusive(fs, cr, lock).value;
    FollowKept(fs, fs1, dest);
    ExistsKept(fs, fs1, c.source);
    var w := WriteFile(cr, fs1, false, dest, c.source, c.text);
    if w.out.Returned? {
      var q := Follow(fs1, dest).value;
      FollowKept(fs1, w.fs, dest);
      assert lock in w.fs && !IsLink(w.fs, lock);
      var fs2 := w.fs - {lock};
      FollowAfterFileRemoval(w.fs, lock, dest);
      assert fs2[q] == w.fs[q];
    }
  }

  /**
   * The lockfile does not outlive a run that returns: it is there
   * afterwards exactly when it was there before (given the source-of-truth
   * file exists and the backup name does not lead to the lockfile).
   */
  lemma VisudoReleasesLock(h: Host, fs: FileSystem, dryrun: bool, dest: Path, c: Compiled, check: string -> Option<int>,
                           t: BackupTarget, lock: Path, policy: BusyPolicy)
    requires Exists(fs, c.source) && Follow(fs, t.write) != Some(lock)
    requires VisudoCore(h, fs, dryrun, dest, Ok(c), check, t, lock, policy).out.Returned?
    ensures lock in VisudoCore(h, fs, dryrun, dest, Ok(c), check, t, lock, policy).fs <==> lock in fs
  {
    var tx := Attempt(h, fs, dryrun, dest, c, check, t, lock, policy);
    if Differs(fs, dest, c.text) && check(c.text) == Some(0) {
      if !Exists(fs, dest) {
        LockedReleases(h.creds, fs, [], dryrun, dest, c, lock, policy);
      } else {
        var b := Backup(h.creds, fs, dryrun, dest, t);
        assert lock in b.fs <==> lock in fs;
        if b.out == Returned(true) {
          ExistsKept(fs, b.fs, c.source);
          LockedReleases(h.creds, b.fs, b.log, dryrun, dest, c, lock, policy);
        }
      }
    }
  }

  lemma LockedReleases(cr: Creds, fs: FileSystem, log: seq<Warning>, dryrun: bool, dest: Path, c: Compiled,
                       lock: Path, policy: BusyPolicy)
    requires Exists(fs, c.source)
    ensures var r := Locked(cr, fs, log, dryrun, dest, c, lock, policy);
      r.out.Raised? || (lock in r.fs <==> lock in fs)
  {
    if lock !in fs {
      var fs1 := CreateExclusive(fs, cr, lock).value;
      ExistsKept(fs, fs1, c.source);
    }
  }

  /**
   * Dry-run agreement: whenever a real `visudo` returns, a dry run from the
   * same state returns the same value and logs the same warnings (given the
   * source-of-truth file exists and the backup name does not lead to the
   * lockfile).  The dry run does create and remove the lockfile, so it
   * aborts on a held lockfile as the real run does, logging what the policy
   * logs.
   */
  lemma VisudoDryRunAgrees(h: Host, fs: FileSystem, dest: Path, c: Compiled, check: string -> Option<int>,
                           t: BackupTarget, lock: Path, policy: BusyPolicy)
    requires Exists(fs, c.source) && Follow(fs, t.write) != Some(lock)
    requires VisudoCore(h, fs, false, dest, Ok(c), check, t, lock, policy).out.Returned?
    ensures var live := VisudoCore(h, fs, false, dest, Ok(c), check, t, lock, policy);
      VisudoCore(h, fs, true, dest, Ok(c), check, t, lock, policy) == Run(fs, live.log, live.out)
  {
    var live := Attempt(h, fs, false, dest, c, check, t, lock, policy);
    AttemptDryAgrees(h, fs, dest, c, check, t, lock, policy);
    if Exists(fs, dest) {
      ExistsKept(fs, live.fs, dest);
    }
  }

  lemma AttemptDryAgrees(h: Host, fs: FileSystem, dest: Path, c: Compiled, check: string -> Option<int>,
                         t: BackupTarget, lock: Path, policy: BusyPolicy)
    requires Exists(fs, c.source) && Follow(fs, t.write) != Some(lock)
    requires Attempt(h, fs, false, dest, c, check, t, lock, policy).out.Returned?
    ensures var live := Attempt(h, fs, false, dest, c, check, t, lock, policy);
      var dry := Attempt(h, fs, true, dest, c, check, t, lock, policy);
      && dry.out == live.out && dry.log == live.log
      && (live.out != Returned(Some(true)) ==> StatOf(live.fs, dest) == StatOf(fs, dest))
  {
    var live := Attempt(h, fs, false, dest, c, check, t, lock, policy);
    if Differs(fs, dest, c.text) && check(c.text) == Some(0) {
      if !Exists(fs, dest) {
        LockedDryAgrees(h.creds, fs, [], dest, c, lock, policy);
      } else {
        var b := Backup(h.creds, fs, false, dest, t);
        if b.out == Returned(true) {
          assert lock in b.fs <==> lock in fs;
          ExistsKept(fs, b.fs, c.source);
          FollowKept(fs, b.fs, dest);
          var q := Target(fs, dest);
          assert q !in Slot(fs, t.write);
          assert StatOf(b.fs, dest) == StatOf(fs, dest);
          LockedDryAgrees(h.creds, b.fs, b.log, dest, c, lock, policy);
        }
      }
    }
  }

  lemma LockedDryAgrees(cr: Creds, fs: FileSystem, log: seq<Warning>, dest: Path, c: Compiled, lock: Path, policy: BusyPolicy)
    requires Exists(fs, c.source)
    requires Locked(cr, fs, log, false, dest, c, lock, policy).out.Returned?
    ensures var live := Locked(cr, fs, log, false, dest, c, lock, policy);
      var dry := Locked(cr, fs, log, true, dest, c, lock, policy);
      && dry.out == live.out && dry.log == live.log
      && (live.out != Returned(Some(true)) ==> live.fs == fs)
  {
    if lock !in fs {
      var fs1 := CreateExclusive(fs, cr, lock).value;
      ExistsKept(fs, fs1, c.source);
    }
  }
}
